=== FILE: README.md ===
# Layout reconstruction of the Lengyan PDF converter, in Dafny

This project models the page-layout engine of `pdf_converter.py` and the
volume splitter of `split_lengyan.py`, and proves properties of the model.

The PDF converter takes the positioned glyphs of a scanned commentary
page. Each glyph has its text, `x0`/`x1`, `top`/`bottom`, point size and
font name. The converter rebuilds the reading order from these glyphs and
writes the page as HTML or Markdown. The model follows one page through
the pipeline:

- **Size filter** (`Glyphs.FilterSizes`): keeps the glyphs in the two
  accepted bands, 12.5–13.5pt (commentary) and 15.5–16.5pt (scripture).
- **Layout classifier** (`Clustering.DetectLayout`): decides horizontal
  or vertical. It counts the distinct rounded `x0` and `top` values.
- **Clustering** (`Clustering.Clusters`): sorts the glyphs along the
  primary axis (`x0` for columns, `top` for lines). It cuts wherever the
  step from one glyph to the next reaches half the previous glyph's size.
  All three cutting passes in the program are instances of one function,
  `Grouping.Group`, which cuts a sequence where neighbours are not
  "glued". `Grouping.IsGroupingOf` is its declarative description, and
  `Grouping.GroupUnique` proves the two agree.
- **Read-out** (`Clustering.ReadingOrder`): columns come out in reverse
  order (right to left), lines in order. Each cluster is re-sorted along
  the other axis.
- **HTML span merger** (`StyleMerge.MergeSpans`): a literal fold over the
  loop's state: `span_text`, `current_style`, and `last_y`/`last_x` with
  the -1 sentinel. It closes a span when the derived style changes. It
  writes a space when the gap from the previous glyph's end (`bottom` or
  `x1`) exceeds 1.5 times the *current* glyph's size.
- **Markdown run merger** (`SizeMerge.MdCluster`): a fold that closes a
  run when the rounded size changes. It writes the stripped, converted
  text, in bold when the size is at least 15.5. Only the last run of a
  cluster gets the paragraph break.
- **Font helpers** (`Fonts.CleanFontName`, `Fonts.FontStyle`): strip the
  subset prefix and the weight suffixes, detect boldness, and look up the
  CSS family.
- **Whole page** (`Pages.HtmlPageOf`, `Pages.MdPageOf`): composes the
  stages and handles the empty-page cases.

The volume splitter (`Volumes.SplitByVolume`) is given the heading
matches. It cuts the document into one slice per volume. Each slice runs
from its heading to the next heading, and the last one to the end.

Each merger is stated twice:

- as the loop the source runs (`Walk`, `RunWalk`);
- as a reference layout built from maximal segments (`Layout`, `RunLayout`).

The main theorems (`StyleMerge.MergeIsLayout`, `SizeMerge.MdIsRunLayout`)
prove that the two agree on every cluster.

Two consequences of the code are worth stating on their own:

- **Short pages are horizontal.** A page with fewer than ten glyphs is
  always classified horizontal (pdf_converter.py:10-11). So a short column
  of glyphs stacked one below the other is read as one line per glyph, and
  in Markdown each becomes a paragraph of its own (`Pages.SixStackedGlyphs`).
- **Empty pages.** When no glyph of a page is in a size band, the HTML
  converter writes a placeholder (pdf_converter.py:177-179). The Markdown
  converter skips the page and writes nothing for it
  (pdf_converter.py:401-402, `Pages.MdSkipsEmptyPages`).

## Model

| member | source | states |
|---|---|---|
| Text.RemoveAll | pdf_converter.py:37-38 | `s.replace(p, "")` scans once, left to right: the result is never longer than s, and s comes back unchanged when p does not occur in it; RemoveFirst states what it deletes |
| Text.RemoveFirst | pdf_converter.py:37-38 | `str.replace(p, "")` deletes the leftmost occurrence and resumes after it: when p starts nowhere in a + p + b before the end of a, the result is a followed by the result on b; with RemoveAll's clause for a p-free string this determines the result for every input |
| Text.AfterFirst | pdf_converter.py:34 | `s.split(c, 1)[1]`: s is a c-free head, then c, then the result |
| Text.Strip | pdf_converter.py:215 | `str.strip()`: the result is the piece of s between a whitespace prefix and a whitespace suffix, starts and ends with non-whitespace, and is empty iff s is all whitespace |
| Text.Lower | pdf_converter.py:56 | `str.lower()`: same length, each character lower-cased on its own |
| Glyphs.Round1 | pdf_converter.py:14-15 | `round(x, 1)` is a whole number of tenths within half a tenth of x |
| Glyphs.RoundUnique | pdf_converter.py:14-15 | the rounding is determined: any whole number of tenths within half a tenth of x (upper end included) is Round1(x) |
| Glyphs.RoundMonotone | pdf_converter.py:433-437 | rounding to a tenth preserves order, so the size tier of a glyph follows its size |
| Glyphs.FilterSizes | pdf_converter.py:175 | the filter keeps exactly the glyphs in the 12.5–13.5 or 15.5–16.5 band, each as often as the page has it, and is empty iff no glyph is in a band |
| Glyphs.InBands | pdf_converter.py:175 | the band test: 12.5 to 13.5 or 15.5 to 16.5, bounds included; FilterSizes states its use |
| Glyphs.FilterKeepsAll | pdf_converter.py:175 | a page whose glyphs are all in band passes the filter unchanged |
| Glyphs.FilterSizesAppend | pdf_converter.py:175 | the filter works glyph by glyph: filtering a concatenation is concatenating the filtered parts |
| Glyphs.SortBy | pdf_converter.py:192 | `sorted(key=...)` returns a permutation of its input that is ordered by the key |
| Glyphs.SortBySorted | pdf_converter.py:213 | sorting input that is already ordered by the key leaves it as it is |
| Glyphs.TextsAppend | pdf_converter.py:215 | joining glyph texts distributes over concatenation |
| Clustering.DetectLayout | pdf_converter.py:5-22 | fewer than 10 glyphs give horizontal; otherwise vertical iff distinct rounded x0 < 0.5 × distinct rounded top |
| Clustering.DistinctStarts | pdf_converter.py:14-15 | the set of start coordinates rounded to a tenth, whose size `len(set(...))` counts; DetectLayout and LayoutIgnoresOrder state its use |
| Clustering.LayoutIgnoresOrder | pdf_converter.py:10-22 | the classification depends only on the multiset of glyphs, not on their order |
| Clustering.OneColumnIsVertical | pdf_converter.py:14-20 | at least 10 glyphs on one rounded x0 with three distinct rounded tops are classified vertical |
| Clustering.OneRowIsHorizontal | pdf_converter.py:14-22 | glyphs that all share one rounded top are never classified vertical |
| Clustering.Clusters | pdf_converter.py:192-208 | the clusters cut the sorted page into non-empty pieces, exactly where the step to the next glyph reaches half the previous glyph's size |
| Clustering.ClustersPartition | pdf_converter.py:272-287 | the clusters concatenate to the sorted page, none is empty, and sorted neighbours share a cluster iff the primary-axis step is below half the previous glyph's size |
| Clustering.ReadingOrder | pdf_converter.py:211-213 | vertical read-out is the reversed clusters, horizontal the clusters in order, each a permutation of its source cluster sorted along the secondary axis |
| Clustering.PageClusters | pdf_converter.py:189-213 | the clusters read out are as many as the clustering pass cuts, and none is empty |
| Clustering.ColumnsRightToLeft | pdf_converter.py:211 | on a vertical page, every glyph of an earlier column read out has x0 at least that of every glyph of a later one |
| Clustering.LinesTopToBottom | pdf_converter.py:289-290 | on a horizontal page, every glyph of an earlier line has top at most that of every glyph of a later one |
| Clustering.ColumnsReadReversed | pdf_converter.py:211-213 | columns cut from an x0-sorted sequence come out right to left |
| Clustering.LinesReadInOrder | pdf_converter.py:289-290 | lines cut from a top-sorted sequence come out top to bottom |
| Clustering.PartsOrdered | pdf_converter.py:192-208 | pieces cut from a sorted sequence are ordered one after another |
| Clustering.ClusterMembers | pdf_converter.py:211-213 | a glyph of the i-th cluster read out comes from the cluster it was re-sorted from |
| Clustering.PageKeepsEveryGlyph | pdf_converter.py:192-213 | the clusters read out hold exactly the glyphs of the page, counted with multiplicity |
| Grouping.Group | pdf_converter.py:194-208 | the forward loop's `current_column`/`columns` result satisfies the grouping description |
| Grouping.SameLine | pdf_converter.py:202-203 | the clustering test: the next glyph starts less than half the previous glyph's size further on; ClustersPartition states its use |
| Grouping.GapBefore | pdf_converter.py:228 | the gap test: a previous end other than the -1 sentinel, and a step from it larger than 1.5 times the current glyph's size; SpacesAtGaps states its use |
| Grouping.GroupUnique | pdf_converter.py:272-287 | any cutting into cohesive, separated, non-empty pieces that concatenate to the input is the loop's result |
| Grouping.GroupAllGlued | pdf_converter.py:197-204 | when every neighbour is glued the loop yields one piece |
| Grouping.GroupNoneGlued | pdf_converter.py:197-207 | when no neighbour is glued the loop yields one piece per glyph |
| Grouping.ExtendLast | pdf_converter.py:203-204 | a glued glyph extends the open piece and keeps the grouping description |
| Grouping.OpenNew | pdf_converter.py:205-207 | an unglued glyph closes the open piece and opens a new one, keeping the grouping description |
| Fonts.CleanFontName | pdf_converter.py:24-40 | None iff the name is empty; otherwise the text after the first '+' (or the whole name) passed through four `str.replace` deletions in turn: -Bold, -Italic, -Regular, -Medium |
| Fonts.SubsetPrefixDropped | pdf_converter.py:32-34 | "ABCDE+SimSun" style names lose the prefix up to the first '+' |
| Fonts.CleanNameFixed | pdf_converter.py:29-40 | a non-empty name with no '+' and no dash is returned as it is |
| Fonts.NoDashNoSuffix | pdf_converter.py:37-38 | a name without a dash is not changed by the suffix removal |
| Fonts.SuffixCleaned | pdf_converter.py:32-38 | "prefix+Base" followed by any one of -Bold, -Italic, -Regular or -Medium cleans to "Base" when Base has no dash |
| Fonts.SuffixCanReform | pdf_converter.py:37-38 | each deletion scans once, so a suffix can form again: "x-Bo-Boldld" cleans to "x-Bold" |
| Fonts.BoldSuffixWeight | pdf_converter.py:54-58 | a name ending in "Bold" is bold |
| Fonts.BoldSuffixStyle | pdf_converter.py:47-84 | the style of "prefix+Base-Bold" with no size is Base's family, 12.0pt and bold |
| Fonts.BoldPrefixQuirk | pdf_converter.py:51-58 | the weight test reads the raw name, so "bd" in the subset prefix makes a glyph bold even though the cleaned name has no trace of it |
| Fonts.BoldIgnoresCase | pdf_converter.py:55-57 | the weight test is insensitive to letter case |
| Fonts.FallbackKeepsName | pdf_converter.py:78 | two names missing from the family table get the same family only when they are the same name |
| Fonts.MissingNameReadsNone | pdf_converter.py:78 | a glyph without a font name gets the fallback family of a font named "None" |
| Fonts.FontStyle | pdf_converter.py:42-84 | `get_font_style`: family from the cleaned name, size a whole number of tenths (12.0 when none is given, otherwise within half a tenth of the given size), bold from the raw name; BoldSuffixStyle and BoldPrefixQuirk state its results on whole names |
| Fonts.PointSize | pdf_converter.py:48-82 | the printed size is a whole number of tenths: 12.0 when the glyph gives none, otherwise within half a tenth of its size |
| Fonts.GlyphStyle | pdf_converter.py:47-48 | a glyph's style is `get_font_style` on its font name and size, so its printed size is within half a tenth of the glyph's |
| Fonts.FamilyOf | pdf_converter.py:78 | `font_map.get(clean_name, fallback)`: the table's family for a known name, otherwise the quoted name followed by SimSun and serif, and the text None for a missing name; FallbackKeepsName and MissingNameReadsNone state its contract |
| Fonts.KnownFamily | pdf_converter.py:61-76 | the fourteen-entry family table, None for any other name; FamilyOf and FallbackKeepsName state its use |
| Fonts.IsBoldName | pdf_converter.py:54-58 | the weight test: a non-empty raw name whose lower-cased form contains bold, heavy, black or bd; BoldSuffixWeight, BoldIgnoresCase and BoldPrefixQuirk state its contract |
| StyleMerge.Step | pdf_converter.py:224-256 | one loop iteration never takes back a written piece, and leaves `current_style` at the glyph's style and `last_y` at the glyph's end |
| StyleMerge.Walk | pdf_converter.py:219-256 | the loop starts with nothing written, no style and the -1 sentinel, and ends with the last glyph's style and end |
| StyleMerge.MergeSpans | pdf_converter.py:219-265 | the loop followed by the final flush, for columns (lines 219-265) and lines (lines 300-340); MergeIsLayout states its contract |
| StyleMerge.Flush | pdf_converter.py:258-265 | writing out the pending span: a span of the collected text under the current style, nothing when no text is pending; StepBreaks states its use |
| StyleMerge.StepKeeps | pdf_converter.py:228-256 | a glyph with no gap before it and the current style only extends `span_text` |
| StyleMerge.StepBreaks | pdf_converter.py:228-256 | a gap or a style change flushes the pending span, writes a space only for a gap, and restarts the text with the glyph |
| StyleMerge.WalkShape | pdf_converter.py:224-256 | after any prefix of the cluster, the loop state is the predicted one: spans of all closed segments written, the last segment pending |
| StyleMerge.MergeIsLayout | pdf_converter.py:215-265 | the merger writes exactly one span per maximal style-and-no-gap segment whose text is not empty, a space before each segment that follows a gap, and nothing else |
| StyleMerge.SpansKeepText | pdf_converter.py:224-265 | with the spaces removed, the span texts joined are the cluster's glyph texts in order |
| StyleMerge.SpacesAtGaps | pdf_converter.py:227-238 | with identity conversion, the line is the glyph texts with one space before exactly the glyphs whose gap exceeds 1.5 × their own size |
| StyleMerge.OneStyleOneSpan | pdf_converter.py:240-265 | a cluster with some text, of one style and no large gap becomes exactly one span holding all of its text |
| StyleMerge.SpansWellFormed | pdf_converter.py:245-265 | every span written carries a style and non-empty text |
| StyleMerge.WalkText | pdf_converter.py:224-256 | the loop invariant: written text plus pending text is the spaced text so far, and `last_y` is the last glyph's end |
| SizeMerge.RunStep | pdf_converter.py:437-454 | one loop iteration writes at most one piece and only when the rounded size changes, never takes back a written piece, and leaves `current_size` at the glyph's rounded size |
| SizeMerge.RunWalk | pdf_converter.py:433-454 | the loop ends under the last glyph's rounded size, writes no empty piece, and, starting from the first glyph's size, writes fewer pieces than there are glyphs |
| SizeMerge.MdCluster | pdf_converter.py:430-462 | a cluster (columns at lines 430-462, lines at lines 485-509) gives at most one piece per glyph and no empty piece |
| SizeMerge.Emit | pdf_converter.py:442-449 | a run writes at most one piece, and one exactly when its converted text is not empty after stripping |
| SizeMerge.RunWalkShape | pdf_converter.py:433-454 | after any prefix, the pieces of all closed size runs are written and the last run's text is pending under its size |
| SizeMerge.MdIsRunLayout | pdf_converter.py:433-462 | the merger writes one piece per maximal run of equal rounded size (dropped when blank), bold iff the size is ≥ 15.5, the last one closing the paragraph |
| SizeMerge.RunsKeepText | pdf_converter.py:436-454 | the runs' texts joined are the cluster's glyph texts in order |
| SizeMerge.RunsOfOneSize | pdf_converter.py:488-500 | every glyph of a run has the run's rounded size, and neighbouring runs differ in it |
| SizeMerge.TierFollowsBand | pdf_converter.py:444-449 | for a glyph that passed the filter, the bold tier is exactly the 15.5–16.5 band |
| SizeMerge.OnlyLastRunBreaks | pdf_converter.py:456-462 | no piece but the last ends in a line break, and the last does iff the final run has text after stripping |
| SizeMerge.LayoutBreaks | pdf_converter.py:504-509 | the paragraph-break property on the reference pieces of any runs |
| SizeMerge.MiddleNoBreak | pdf_converter.py:492-498 | a piece of a run that does not close the cluster never ends in a line break |
| Pages.HtmlLines | pdf_converter.py:214-265 | one line per non-blank cluster read out, so never more lines than clusters |
| Pages.HtmlPageOf | pdf_converter.py:165-346 | the HTML converter's page: the two placeholders, else the filter, classifier, clustering, read-out and span merger composed; HtmlPlaceholders, PageKeepsBandGlyphs and HtmlLinesNotBlank state its contract |
| Pages.MdClusters | pdf_converter.py:426-509 | the pieces of every cluster read out, in order, none of them empty |
| Pages.MdPageOf | pdf_converter.py:390-511 | the Markdown converter's page: skipped with no in-band glyph, otherwise pieces of which none is empty; MdSkipsEmptyPages states when it is skipped |
| Pages.HtmlPlaceholders | pdf_converter.py:169-179 | the HTML page is the no-text placeholder iff the page has no glyphs, and the no-matching-size placeholder iff it has glyphs but none in band |
| Pages.MdSkipsEmptyPages | pdf_converter.py:394-402 | the Markdown converter skips a page iff none of its glyphs is in band |
| Pages.PageKeepsBandGlyphs | pdf_converter.py:175-213 | the clusters of a page hold each in-band glyph as often as the page does, and no other glyph |
| Pages.NonBlank | pdf_converter.py:215-217 | the kept clusters are exactly those whose joined text is not all whitespace |
| Pages.NonBlankKeepsAll | pdf_converter.py:291-293 | with no blank cluster, none is dropped |
| Pages.HtmlLinesNotBlank | pdf_converter.py:291-293 | the raw (unconverted) text of every line written is not all whitespace |
| Pages.HtmlKeepsNonBlank | pdf_converter.py:289-343 | when no cluster is blank, line i is the merge of cluster i |
| Pages.OneClusterWhenClose | pdf_converter.py:195-208 | glyphs each within half the previous glyph's size of it form a single cluster |
| Pages.ClusterPerGlyphWhenSpread | pdf_converter.py:195-208 | glyphs each at least half the previous glyph's size apart give one cluster per glyph |
| Pages.SortedSpreadClusters | pdf_converter.py:272-287 | sorted glyphs with no neighbour on the same line are clustered one glyph each |
| Pages.SingletonLines | pdf_converter.py:289-290 | re-sorting one-glyph lines changes nothing |
| Pages.SpreadShortPage | pdf_converter.py:10-11 | a short, spread-out page reads as one line per glyph, in order |
| Pages.SingleGlyphParagraph | pdf_converter.py:485-509 | a one-glyph cluster becomes its converted, stripped text as one paragraph, bold in the scripture tier |
| Pages.SingletonParagraphs | pdf_converter.py:480-509 | one-glyph clusters become one paragraph each |
| Pages.SixStackedGlyphs | pdf_converter.py:399-509 | six 16pt glyphs stacked 17pt apart pass the filter, are classified horizontal, become six one-glyph lines and six bold paragraphs |
| Volumes.SplitByVolume | split_lengyan.py:40-51 | one volume per heading match, named after the captured number |
| Volumes.EndOf | split_lengyan.py:42-45 | the end of volume i: the next heading's start, or the content's length for the last; VolumeText states its use |
| Volumes.FileName | split_lengyan.py:51 | the output file name built around the captured number; FileNameInjective states its contract |
| Volumes.Slice | split_lengyan.py:48 | Python slicing clamps to the string and is the plain slice for in-range bounds |
| Volumes.FileNameInjective | split_lengyan.py:51 | distinct volume numbers give distinct output files |
| Volumes.VolumeText | split_lengyan.py:40-48 | volume i is the content from its heading's start to the next heading's start (the end for the last), and begins with its own heading |
| Volumes.OneHeadingPerVolume | split_lengyan.py:32-48 | a volume holds the start of its own heading and of no other |
| Volumes.PrefixJoin | split_lengyan.py:40-48 | consecutive slices joined up to volume k run from the first heading to where volume k ends |
| Volumes.SplitReassembles | split_lengyan.py:40-48 | the volumes joined give back the content from the first heading on |
| Volumes.NoHeadingNoVolume | split_lengyan.py:31-40 | no heading match gives no volume |

## Left out

- Extracting glyphs with pdfplumber is not modelled: a page is given as a sequence of `Glyph` values.
- The Traditional-to-Simplified conversion (OpenCC) is a parameter `convert: string -> string`.
- File I/O, directory creation, existence checks, progress prints and the exception report are not modelled.
- Volumes.SplitReassembles: the returned slices reassemble the content, but the files written need not. Two headings with the same captured number get the same file name (`Volumes.FileNameInjective` only gives the other direction), and the later write replaces the earlier one (split_lengyan.py:51-55); file writing is not modelled.
- The HTML and Markdown page headers, footers and page-number lines are not modelled. Neither is the inline `style="…"` string: a span carries its `Style` value instead.
- `Glyphs.Round1` rounds halves up on exact reals; Python's `round` works on binary floats with round-half-even, and the model does not reproduce that.
- Grouping.SameLine, Grouping.GapBefore, Glyphs.InBands and SizeMerge.Emit compare exact reals; the program compares IEEE doubles. Coordinates, sizes and every threshold are modelled as exact `real`s, so the band bounds (pdf_converter.py:175, 399), the same-line test `< size * 0.5` (203, 282), the gap test `> size * 1.5` (228, 303) and the scripture-tier test `>= 15.5` (444, 459, 506) can decide differently from the program for a value on, or within rounding error of, a boundary.
- `Text.Lower` lower-cases ASCII letters only; Python's `str.lower` also folds other scripts. The weight keywords are ASCII, but a non-ASCII capital that lower-cases to one of them is not modelled.
- `Text.IsSpace` lists the Unicode whitespace code points by range as Python's `str.isspace` does; the list is written out by hand, not taken from a Unicode table.
- Glyphs.SortBy: Python's sort is stable and keeps equal keys in their input order; the model's insertion sort is also stable, but the contracts state only "ordered by the key and a permutation", so tie-breaks are left unspecified.
- Finding the volume headings with the regular expression is not modelled: the matches are an input, assumed ordered and non-overlapping (`Volumes.ValidHeadings`), as `re.finditer` yields them.
- font_analyzer.py, debug_pdf.py and extract_chengguan.py are not part of this model: they are printing tools and regular-expression passes with no layout logic.

=== FILE: clustering.dfy ===
/** Page geometry: the layout classifier, the cut of the sorted page into
    lines or columns, and the order in which those clusters are read out
    (pdf_converter.py detect_layout and the clustering passes of both
    converters). */
module Clustering {
  import opened Seqs
  import opened Glyphs
  import opened Grouping

  datatype Direction = Horizontal | Vertical

  /** Vertical pages are cut into columns along x; horizontal pages into
      lines along y. */
  function PrimaryAxis(d: Direction): Axis
  {
    match d
    case Vertical => Across
    case Horizontal => Down
  }

  /** Within a cluster glyphs are read along the other axis: down a column,
      across a line. */
  function SecondaryAxis(d: Direction): (a: Axis)
    ensures a != PrimaryAxis(d)
  {
    match d
    case Vertical => Down
    case Horizontal => Across
  }

  /** A page with fewer glyphs than this is always read as horizontal. */
  const MinGlyphsForVertical: nat := 10

  /** The distinct coordinates, rounded to a tenth, at which glyphs start on
      axis a: `set(round(c[key], 1) for c in chars)`. */
  function DistinctStarts(gs: seq<Glyph>, a: Axis): set<real>
  {
    set g | g in gs :: Round1(Start(g, a))
  }

  /** `detect_layout`: vertical when the page has at least ten glyphs and
      fewer than half as many distinct x positions as distinct y positions. */
  function DetectLayout(gs: seq<Glyph>): (d: Direction)
    ensures |gs| < MinGlyphsForVertical ==> d == Horizontal
    ensures |gs| >= MinGlyphsForVertical ==>
      (d == Vertical <==>
        (|DistinctStarts(gs, Across)| as real) < (|DistinctStarts(gs, Down)| as real) * 0.5)
  {
    if |gs| < MinGlyphsForVertical then Horizontal
    else if (|DistinctStarts(gs, Across)| as real) < (|DistinctStarts(gs, Down)| as real) * 0.5
    then Vertical
    else Horizontal
  }

  /** The classifier looks only at which glyphs there are and how many, never
      at their order: any rearrangement of the page gets the same layout. */
  lemma LayoutIgnoresOrder(gs: seq<Glyph>, hs: seq<Glyph>)
    requires multiset(gs) == multiset(hs)
    ensures DetectLayout(gs) == DetectLayout(hs)
  {
    assert |gs| == |multiset(gs)| == |multiset(hs)| == |hs|;
    assert forall g :: g in gs <==> g in multiset(gs);
    assert forall g :: g in hs <==> g in multiset(hs);
    assert DistinctStarts(gs, Across) == DistinctStarts(hs, Across);
    assert DistinctStarts(gs, Down) == DistinctStarts(hs, Down);
  }

  /** A page of at least ten glyphs that all start in one column, spread
      over at least three rows, reads as vertical. */
  lemma OneColumnIsVertical(gs: seq<Glyph>, x: real, t0: real, t1: real, t2: real)
    requires |gs| >= MinGlyphsForVertical
    requires forall g :: g in gs ==> Round1(g.x0) == x
    requires t0 != t1 && t1 != t2 && t0 != t2
    requires t0 in DistinctStarts(gs, Down) && t1 in DistinctStarts(gs, Down)
    requires t2 in DistinctStarts(gs, Down)
    ensures DetectLayout(gs) == Vertical
  {
    var xs := DistinctStarts(gs, Across);
    assert gs[0] in gs;
    assert xs == {x} by {
      forall v | v in xs ensures v == x {
        var g :| g in gs && Round1(Start(g, Across)) == v;
      }
      assert Round1(Start(gs[0], Across)) in xs;
    }
    var three := {t0, t1, t2};
    assert |three| == 3;
    assert three <= DistinctStarts(gs, Down);
    SubsetCard(three, DistinctStarts(gs, Down));
  }

  lemma SubsetCard(a: set<real>, b: set<real>)
    requires a <= b
    ensures |a| <= |b|
  {
    assert b == a + (b - a);
  }

  /** A page whose glyphs all start on one rounded row reads as horizontal,
      whatever its length. */
  lemma OneRowIsHorizontal(gs: seq<Glyph>, y: real)
    requires forall g :: g in gs ==> Round1(g.top) == y
    ensures DetectLayout(gs) == Horizontal
  {
    var ys := DistinctStarts(gs, Down);
    assert |ys| <= 1 by {
      assert ys <= {y};
      SubsetCard(ys, {y});
    }
    if |gs| > 0 {
      assert Round1(Start(gs[0], Across)) in DistinctStarts(gs, Across);
    }
  }

  /** The clustering pass: sort by the primary axis and cut wherever the
      step from one glyph to the next is at least half the previous glyph's
      size. */
  function Clusters(gs: seq<Glyph>, d: Direction): (cs: seq<seq<Glyph>>)
    ensures IsGroupingOf(SortBy(gs, PrimaryAxis(d)), cs, ByLine(PrimaryAxis(d)))
  {
    Group(SortBy(gs, PrimaryAxis(d)), ByLine(PrimaryAxis(d)))
  }

  /** The clusters partition the sorted page: they are non-empty, they
      concatenate back to it, and two neighbours in sorted order share a
      cluster exactly when the second starts less than half the first's
      size further along the primary axis. */
  lemma ClustersPartition(gs: seq<Glyph>, d: Direction)
    ensures var s, cs := SortBy(gs, PrimaryAxis(d)), Clusters(gs, d);
      && Concat(cs) == s
      && (forall i :: 0 <= i < |cs| ==> |cs[i]| > 0)
      && (forall i, j :: 0 <= i < |cs| && 0 < j < |cs[i]| ==>
            Start(cs[i][j], PrimaryAxis(d)) - Start(cs[i][j - 1], PrimaryAxis(d)) < cs[i][j - 1].size * LineTolerance)
      && (forall i :: 0 < i < |cs| ==>
            Start(cs[i][0], PrimaryAxis(d)) - Start(Last(cs[i - 1]), PrimaryAxis(d)) >= Last(cs[i - 1]).size * LineTolerance)
  {
    var cs := Clusters(gs, d);
    forall i, j | 0 <= i < |cs| && 0 < j < |cs[i]|
      ensures SameLine(cs[i][j - 1], cs[i][j], PrimaryAxis(d))
    {
      assert Cohesive(cs[i], ByLine(PrimaryAxis(d)));
    }
    forall i | 0 < i < |cs|
      ensures !SameLine(Last(cs[i - 1]), cs[i][0], PrimaryAxis(d))
    {
      assert Separated(cs[i - 1], cs[i], ByLine(PrimaryAxis(d)));
    }
  }

  /** Emission order: columns right to left (the reverse of the clustering
      order), lines top to bottom; each cluster re-sorted along the
      secondary axis. */
  function ReadingOrder(cs: seq<seq<Glyph>>, d: Direction): (out: seq<seq<Glyph>>)
    ensures |out| == |cs|
    ensures d == Vertical ==> forall i :: 0 <= i < |cs| ==> multiset(out[i]) == multiset(cs[|cs| - 1 - i])
    ensures d == Horizontal ==> forall i :: 0 <= i < |cs| ==> multiset(out[i]) == multiset(cs[i])
    ensures forall i :: 0 <= i < |cs| ==> SortedBy(out[i], SecondaryAxis(d))
  {
    var ordered := if d == Vertical then Reverse(cs) else cs;
    seq(|cs|, i requires 0 <= i < |cs| => SortBy(ordered[i], SecondaryAxis(d)))
  }

  /** The clusters of a page as the converters read them out: as many as
      the clustering pass cuts, none of them empty. */
  function PageClusters(gs: seq<Glyph>, d: Direction): (r: seq<seq<Glyph>>)
    ensures |r| == |Clusters(gs, d)|
    ensures forall i :: 0 <= i < |r| ==> |r[i]| > 0
  {
    var cs := Clusters(gs, d);
    ReadOutNonEmpty(cs, d);
    ReadingOrder(cs, d)
  }

  /** Read-out keeps each cluster's glyphs, so it keeps clusters non-empty. */
  lemma ReadOutNonEmpty(cs: seq<seq<Glyph>>, d: Direction)
    requires forall i :: 0 <= i < |cs| ==> |cs[i]| > 0
    ensures forall i :: 0 <= i < |cs| ==> |ReadingOrder(cs, d)[i]| > 0
  {
  }

  /** In a concatenation sorted along a, every element of an earlier part
      starts no later than every element of a later part. */
  lemma {:induction false} PartsOrdered(parts: seq<seq<Glyph>>, a: Axis, i: nat, j: nat, x: Glyph, y: Glyph)
    requires SortedBy(Concat(parts), a)
    requires i < j < |parts| && x in parts[i] && y in parts[j]
    ensures Start(x, a) <= Start(y, a)
    decreases |parts|
  {
    var front := Concat(Init(parts));
    assert Concat(parts) == front + Last(parts);
    assert SortedBy(front, a) by {
      forall p, q | 0 <= p < q < |front| ensures Start(front[p], a) <= Start(front[q], a) {
        assert front[p] == Concat(parts)[p] && front[q] == Concat(parts)[q];
      }
    }
    assert Init(parts)[i] == parts[i];
    if j == |parts| - 1 {
      InConcat(Init(parts), i, x);
      var p :| 0 <= p < |front| && front[p] == x;
      var q :| 0 <= q < |Last(parts)| && Last(parts)[q] == y;
      assert Concat(parts)[p] == x && Concat(parts)[|front| + q] == y;
    } else {
      assert Init(parts)[j] == parts[j];
      PartsOrdered(Init(parts), a, i, j, x, y);
    }
  }

  /** Vertical pages: a column emitted earlier lies to the right of (or
      level with) every column emitted after it, so columns come out right
      to left. */
  lemma ColumnsRightToLeft(gs: seq<Glyph>, i: nat, j: nat, x: Glyph, y: Glyph)
    requires var out := PageClusters(gs, Vertical);
      i < j < |out| && x in out[i] && y in out[j]
    ensures y.x0 <= x.x0
  {
    SortedClusters(gs, Vertical);
    ColumnsReadReversed(Clusters(gs, Vertical), i, j, x, y);
  }

  /** Horizontal pages: lines come out top to bottom. */
  lemma LinesTopToBottom(gs: seq<Glyph>, i: nat, j: nat, x: Glyph, y: Glyph)
    requires var out := PageClusters(gs, Horizontal);
      i < j < |out| && x in out[i] && y in out[j]
    ensures x.top <= y.top
  {
    SortedClusters(gs, Horizontal);
    LinesReadInOrder(Clusters(gs, Horizontal), i, j, x, y);
  }

  /** Columns cut from a sequence sorted along the primary axis, read out:
      in reversed order. */
  lemma ColumnsReadReversed(cs: seq<seq<Glyph>>, i: nat, j: nat, x: Glyph, y: Glyph)
    requires SortedBy(Concat(cs), Across)
    requires i < j < |cs| && x in ReadingOrder(cs, Vertical)[i] && y in ReadingOrder(cs, Vertical)[j]
    ensures Start(y, Across) <= Start(x, Across)
  {
    ClusterMembers(cs, Vertical, i, x);
    ClusterMembers(cs, Vertical, j, y);
    var n := |cs|;
    var i', j' := n - 1 - j, n - 1 - i;
    assert i' < j' < n && y in cs[i'] && x in cs[j'];
    PartsOrdered(cs, Across, i', j', y, x);
  }

  /** Lines cut from a sequence sorted along the primary axis, read out: in
      the same order. */
  lemma LinesReadInOrder(cs: seq<seq<Glyph>>, i: nat, j: nat, x: Glyph, y: Glyph)
    requires SortedBy(Concat(cs), Down)
    requires i < j < |cs| && x in ReadingOrder(cs, Horizontal)[i] && y in ReadingOrder(cs, Horizontal)[j]
    ensures Start(x, Down) <= Start(y, Down)
  {
    ClusterMembers(cs, Horizontal, i, x);
    ClusterMembers(cs, Horizontal, j, y);
    PartsOrdered(cs, Down, i, j, x, y);
  }

  /** The clusters of a page concatenate to a sequence sorted along the
      primary axis. */
  lemma SortedClusters(gs: seq<Glyph>, d: Direction)
    ensures SortedBy(Concat(Clusters(gs, d)), PrimaryAxis(d))
  {
  }

  /** A glyph of the i-th cluster read out comes from the cluster it was
      re-sorted from. */
  lemma ClusterMembers(cs: seq<seq<Glyph>>, d: Direction, i: nat, x: Glyph)
    requires i < |cs| && x in ReadingOrder(cs, d)[i]
    ensures d == Vertical ==> x in cs[|cs| - 1 - i]
    ensures d == Horizontal ==> x in cs[i]
  {
    var out := ReadingOrder(cs, d);
    assert x in multiset(out[i]);
  }

  /** Sorting, cutting, reversing and re-sorting lose and invent nothing:
      the clusters read out hold exactly the glyphs of the page. */
  lemma PageKeepsEveryGlyph(gs: seq<Glyph>, d: Direction)
    ensures PartsMultiset(PageClusters(gs, d)) == multiset(gs)
  {
    var cs := Clusters(gs, d);
    var out := PageClusters(gs, d);
    ConcatMultiset(cs);
    if d == Vertical {
      ReversedPartsMultiset(cs, out);
    } else {
      SameMultisetParts(cs, out);
    }
  }

  /** Parts with the same multisets, position by position, have the same
      total. */
  lemma {:induction false} SameMultisetParts(cs: seq<seq<Glyph>>, out: seq<seq<Glyph>>)
    requires |out| == |cs|
    requires forall i :: 0 <= i < |cs| ==> multiset(out[i]) == multiset(cs[i])
    ensures PartsMultiset(out) == PartsMultiset(cs)
    decreases |cs|
  {
    if |cs| > 0 {
      SameMultisetParts(Init(cs), Init(out));
    }
  }

  /** Parts whose multisets are those of cs in reverse order have the same
      total. */
  lemma {:induction false} ReversedPartsMultiset(cs: seq<seq<Glyph>>, out: seq<seq<Glyph>>)
    requires |out| == |cs|
    requires forall i :: 0 <= i < |cs| ==> multiset(out[i]) == multiset(cs[|cs| - 1 - i])
    ensures PartsMultiset(out) == PartsMultiset(cs)
    decreases |cs|
  {
    if |cs| > 0 {
      var out' := out[1..];
      var cs' := Init(cs);
      forall i | 0 <= i < |cs'| ensures multiset(out'[i]) == multiset(cs'[|cs'| - 1 - i]) {
        assert out'[i] == out[i + 1];
      }
      ReversedPartsMultiset(cs', out');
      PartsMultisetCons(out[0], out');
      assert out == [out[0]] + out';
    }
  }
}

=== FILE: fonts.dfy ===
/** Font-name cleaning and the style triple (family, size, weight) that the
    HTML span merger compares glyph by glyph (pdf_converter.py,
    clean_fontname and get_font_style). */
module Fonts {
  import opened Seqs
  import opened Text
  import opened Glyphs

  /** The suffixes that `clean_fontname` deletes, in the order it deletes
      them. */
  const Suffixes: seq<string> := ["-Bold", "-Italic", "-Regular", "-Medium"]

  /** Deletes every suffix of `Suffixes` in turn, each with `str.replace`. */
  function RemoveSuffixes(s: string): string
  {
    RemoveAll(RemoveAll(RemoveAll(RemoveAll(s, "-Bold"), "-Italic"), "-Regular"), "-Medium")
  }

  /** `clean_fontname`: no name for an empty font name; otherwise the name
      without the subset prefix (everything up to and including the first
      '+') and with the weight/slant suffixes deleted. */
  function CleanFontName(name: string): (r: Option<string>)
    ensures r.None? <==> name == ""
    ensures r.Some? && '+' !in name ==> r.value == RemoveSuffixes(name)
    ensures r.Some? && '+' in name ==> r.value == RemoveSuffixes(AfterFirst(name, '+'))
  {
    if name == "" then None
    else
      var base := if '+' in name then AfterFirst(name, '+') else name;
      Some(RemoveSuffixes(base))
  }

  /** A name that `CleanFontName` leaves unchanged: no subset prefix and
      none of the deleted suffixes. */
  predicate IsCleanName(n: string)
  {
    n != "" && '+' !in n
    && !Contains(n, "-Bold") && !Contains(n, "-Italic")
    && !Contains(n, "-Regular") && !Contains(n, "-Medium")
  }

  /** Subset-prefixed names: the random prefix is discarded, so two
      embeddings of the same font under different prefixes clean to the
      same name, and a clean base name comes back unchanged. */
  lemma {:induction false} SubsetPrefixDropped(prefix: string, base: string)
    requires '+' !in prefix
    ensures CleanFontName(prefix + "+" + base) == Some(RemoveSuffixes(base))
    ensures IsCleanName(base) ==> CleanFontName(prefix + "+" + base) == Some(base)
  {
    AfterPrefix(prefix, base);
  }

  lemma {:induction false} AfterPrefix(prefix: string, base: string)
    requires '+' !in prefix
    ensures '+' in prefix + "+" + base
    ensures AfterFirst(prefix + "+" + base, '+') == base
    decreases |prefix|
  {
    var s := prefix + "+" + base;
    assert s[|prefix|] == '+';
    if |prefix| > 0 {
      assert s[1..] == prefix[1..] + "+" + base;
      AfterPrefix(prefix[1..], base);
    }
  }

  /** A name already clean is its own cleaned name. */
  lemma CleanNameFixed(n: string)
    requires IsCleanName(n)
    ensures CleanFontName(n) == Some(n)
  {
  }

  const BoldKeywords: seq<string> := ["bold", "heavy", "black", "bd"]

  /** get_font_style's weight test: the lower-cased RAW font name (subset
      prefix included) contains one of the bold keywords. */
  predicate IsBoldName(name: string)
  {
    name != "" &&
    var l := Lower(name);
    Contains(l, "bold") || Contains(l, "heavy") || Contains(l, "black") || Contains(l, "bd")
  }

  /** Lower-casing is idempotent, so the weight test ignores letter case. */
  lemma BoldIgnoresCase(name: string)
    ensures IsBoldName(Lower(name)) == IsBoldName(name)
  {
    assert Lower(Lower(name)) == Lower(name);
  }

  /** The fixed family table for known cleaned names; None for a name it
      does not list. */
  function KnownFamily(n: string): Option<string>
  {
    if n == "SimSun" then Some("\"SimSun\", \"宋体\", serif")
    else if n == "SimHei" then Some("\"SimHei\", \"黑体\", sans-serif")
    else if n == "KaiTi" then Some("\"KaiTi\", \"楷体\", serif")
    else if n == "FangSong" then Some("\"FangSong\", \"仿宋\", serif")
    else if n == "FZShuSong" then Some("\"FZShuSong\", \"方正书宋\", serif")
    else if n == "FZKai" then Some("\"FZKai\", \"方正楷体\", serif")
    else if n == "FZSong" then Some("\"FZSong\", \"方正宋体\", serif")
    else if n == "STSong" then Some("\"STSong\", \"华文宋体\", serif")
    else if n == "STKaiti" then Some("\"STKaiti\", \"华文楷体\", serif")
    else if n == "STHeiti" then Some("\"STHeiti\", \"华文黑体\", sans-serif")
    else if n == "STFangsong" then Some("\"STFangsong\", \"华文仿宋\", serif")
    else if n == "Arial" then Some("Arial, sans-serif")
    else if n == "Times" then Some("\"Times New Roman\", Times, serif")
    else if n == "Courier" then Some("\"Courier New\", Courier, monospace")
    else None
  }

  const FallbackTail: string := "\", \"SimSun\", serif"

  /** The family used for a name the table does not know: the name quoted,
      then SimSun, then serif. */
  function FallbackFamily(n: string): string
  {
    "\"" + n + FallbackTail
  }

  /** `font_map.get(clean_name, fallback)`. A missing name is formatted by
      the f-string as the text None. */
  function FamilyOf(clean: Option<string>): string
  {
    match clean
    case Some(n) => KnownFamily(n).GetOr(FallbackFamily(n))
    case None => FallbackFamily("None")
  }

  /** Two names the table does not know never share a family: the
      fallback keeps the name itself. */
  lemma FallbackKeepsName(a: string, b: string)
    requires KnownFamily(a).None? && KnownFamily(b).None?
    requires FamilyOf(Some(a)) == FamilyOf(Some(b))
    ensures a == b
  {
    var fa, fb := FallbackFamily(a), FallbackFamily(b);
    assert a == fa[1..|fa| - |FallbackTail|];
    assert b == fb[1..|fb| - |FallbackTail|];
  }

  /** A glyph without a font name gets the family of a font literally
      named "None", since the fallback formats the missing name as text. */
  lemma MissingNameReadsNone()
    ensures FamilyOf(None) == FamilyOf(Some("None"))
  {
    assert KnownFamily("None") == None;
  }

  /** The derived style of a glyph; two glyphs start a new span when these
      triples differ. The size is the size as `{size:.1f}` prints it. */
  datatype Style = Style(family: string, size: real, bold: bool)

  /** `get_font_style` on a raw font name and an optional size: the size
      is a whole number of tenths, 12.0 when none is given and otherwise
      within half a tenth of the given one. */
  function FontStyle(fontname: string, size: Option<real>): (r: Style)
    ensures Tenths(r.size)
    ensures size.None? ==> r.size == 12.0
    ensures size.Some? ==> size.value - 0.05 < r.size <= size.value + 0.05
  {
    Style(FamilyOf(CleanFontName(fontname)), PointSize(size), IsBoldName(fontname))
  }

  /** The size as `{size:.1f}` prints it, 12 being the default. */
  function PointSize(size: Option<real>): (pt: real)
    ensures Tenths(pt)
    ensures size.None? ==> pt == 12.0
    ensures size.Some? ==> size.value - 0.05 < pt <= size.value + 0.05
  {
    RoundUnique(12.0, 12.0);
    Round1(size.GetOr(12.0))
  }

  /** The style a glyph is collected under. */
  function GlyphStyle(g: Glyph): (r: Style)
    ensures g.size - 0.05 < r.size <= g.size + 0.05
  {
    FontStyle(g.fontname, Some(g.size))
  }

  /** A name without a dash carries none of the deleted suffixes. */
  lemma NoDashNoSuffix(s: string)
    requires '-' !in s
    ensures RemoveSuffixes(s) == s
  {
    NoDashKept(s, "-Bold");
    NoDashKept(s, "-Italic");
    NoDashKept(s, "-Regular");
    NoDashKept(s, "-Medium");
  }

  lemma NoDashKept(s: string, p: string)
    requires '-' !in s && |p| > 0 && p[0] == '-'
    ensures RemoveAll(s, p) == s
  {
    if Contains(s, p) { ContainsHead(s, p); }
  }

  /** A bold embedding such as "ABCDEF+SimSun-Bold": prefix and suffix go
      from the cleaned name, the weight survives in the style, and an
      absent size reads as 12pt. */
  lemma BoldSuffixStyle(prefix: string, base: string)
    requires '+' !in prefix && '-' !in base
    ensures CleanFontName(prefix + "+" + base + "-Bold") == Some(base)
    ensures FontStyle(prefix + "+" + base + "-Bold", None) == Style(FamilyOf(Some(base)), 12.0, true)
  {
    var name := prefix + "+" + base + "-Bold";
    assert Suffixes[0] == "-Bold";
    SuffixCleaned(prefix, base, "-Bold");
    BoldSuffixBold(prefix + "+" + base);
    assert Round1(12.0) == 12.0 by {
      assert (12.0 * 10.0 + 0.5).Floor == 120;
    }
    assert FontStyle(name, None) == Style(FamilyOf(Some(base)), Round1(12.0), IsBoldName(name));
  }

  lemma BoldSuffixBold(stem: string)
    ensures IsBoldName(stem + "-Bold")
  {
    assert "-Bold" == "-" + "Bold";
    assert stem + ("-" + "Bold") == (stem + "-") + "Bold";
    BoldSuffixWeight(stem + "-");
  }

  /** A suffix that begins with the name's only dash is not found by a
      search for a different suffix. */
  lemma SuffixNotFound(base: string, q: string, p: string)
    requires '-' !in base && |p| > 0 && p[0] == '-'
    requires |q| > 0 && '-' !in q[1..] && !(p <= q)
    ensures !Contains(base + q, p)
  {
    var s := base + q;
    forall i: nat ensures !MatchAt(s, p, i) {
      if i + |p| <= |s| {
        if i < |base| {
          assert s[i..i + |p|][0] == base[i];
        } else if i > |base| {
          assert s[i..i + |p|][0] == q[1..][i - |base| - 1];
        } else {
          assert s[i..i + |p|] == q[..|p|];
        }
      }
    }
    NoMatchNotContains(s, p);
  }

  /** Each suffix is a dash and a capitalised word. */
  lemma SuffixShape(q: string)
    requires q in Suffixes
    ensures |q| > 1 && q[0] == '-' && '-' !in q[1..]
  {
    if q == "-Bold" {
      assert q[1..] == "Bold";
    } else if q == "-Italic" {
      assert q[1..] == "Italic";
    } else if q == "-Regular" {
      assert q[1..] == "Regular";
    } else {
      assert q[1..] == "Medium";
    }
  }

  /** Two different suffixes differ in their second character, so neither
      begins the other. */
  lemma SuffixesApart(p: string, q: string)
    requires p in Suffixes && q in Suffixes && p != q
    ensures !(p <= q)
  {
    assert p[1] != q[1];
  }

  /** Deleting suffix p from a dash-free base followed by suffix q deletes
      q when p is q, and changes nothing otherwise. */
  lemma RemoveOneSuffix(base: string, q: string, p: string)
    requires '-' !in base && q in Suffixes && p in Suffixes
    ensures RemoveAll(base + q, p) == if p == q then base else base + q
  {
    SuffixShape(p);
    SuffixShape(q);
    if p == q {
      RemoveTrailing(base, p);
    } else {
      SuffixesApart(p, q);
      SuffixNotFound(base, q, p);
    }
  }

  /** One step of the suffix chain on a dash-free base, with or without
      the suffix q still attached. */
  lemma RemoveStage(base: string, q: string, p: string, t: string)
    requires '-' !in base && q in Suffixes && p in Suffixes
    requires t == base || t == base + q
    ensures RemoveAll(t, p) == if t == base || p == q then base else base + q
  {
    if t == base {
      NoDashKept(base, p);
    } else {
      RemoveOneSuffix(base, q, p);
    }
  }

  /** "prefix+Base-Weight" cleans to "Base" for each of the four suffixes
      (-Bold, -Italic, -Regular, -Medium) when Base has no dash. */
  lemma SuffixCleaned(prefix: string, base: string, q: string)
    requires '+' !in prefix && '-' !in base && q in Suffixes
    ensures CleanFontName(prefix + "+" + base + q) == Some(base)
  {
    assert prefix + "+" + base + q == prefix + "+" + (base + q);
    SubsetPrefixDropped(prefix, base + q);
    SuffixChain(base, q);
  }

  /** The four deletions on a dash-free base followed by one suffix leave
      the base. */
  lemma SuffixChain(base: string, q: string)
    requires '-' !in base && q in Suffixes
    ensures RemoveSuffixes(base + q) == base
  {
    var t1 := RemoveAll(base + q, "-Bold");
    RemoveStage(base, q, "-Bold", base + q);
    var t2 := RemoveAll(t1, "-Italic");
    RemoveStage(base, q, "-Italic", t1);
    var t3 := RemoveAll(t2, "-Regular");
    RemoveStage(base, q, "-Regular", t2);
    RemoveStage(base, q, "-Medium", t3);
    assert q == "-Bold" || q == "-Italic" || q == "-Regular" || q == "-Medium";
  }

  /** The deletions run one after another and each scans only once, so a
      suffix can form again from the pieces around a deleted one:
      "x-Bo-Boldld" loses its inner "-Bold", and what is left, "x-Bold",
      is the cleaned name. */
  lemma SuffixCanReform()
    ensures CleanFontName("x-Bo" + "-Bold" + "ld") == Some("x" + "-Bold")
  {
    var n := "x-Bo" + "-Bold" + "ld";
    assert '+' !in n by {
      forall i | 0 <= i < |n| ensures n[i] != '+' {}
    }
    ReformedBold();
    RemoveOneSuffix("x", "-Bold", "-Italic");
    RemoveOneSuffix("x", "-Bold", "-Regular");
    RemoveOneSuffix("x", "-Bold", "-Medium");
  }

  lemma ReformedBold()
    ensures RemoveAll("x-Bo" + "-Bold" + "ld", "-Bold") == "x" + "-Bold"
  {
    var p, head, tail := "-Bold", "x-Bo", "ld";
    var u := head + p + tail;
    assert u[4..][..|p|] == p && u[4..][|p|..] == tail;
    assert RemoveAll(tail, p) == tail;
    KeepHead(u[3..], p, 0);
    KeepHead(u[2..], p, 0);
    KeepHead(u[1..], p, 3);
    KeepHead(u, p, 0);
    assert u[1..][1..] == u[2..] && u[2..][1..] == u[3..] && u[3..][1..] == u[4..];
    assert [u[0]] + [u[1]] + [u[2]] + [u[3]] == head;
  }

  /** A string that differs from p at position k keeps its first
      character. */
  lemma KeepHead(s: string, p: string, k: nat)
    requires k < |p| <= |s| && s[k] != p[k]
    ensures RemoveAll(s, p) == [s[0]] + RemoveAll(s[1..], p)
  {
  }

  lemma BoldSuffixWeight(head: string)
    ensures IsBoldName(head + "Bold")
  {
    LowerAppend(head, "Bold");
    var l := Lower("Bold");
    assert l[0] == 'b' && l[1] == 'o' && l[2] == 'l' && l[3] == 'd';
    assert l == "bold";
    assert Contains(l, "bold");
    ContainsAppendLeft(Lower(head), l, "bold");
  }

  /** The weight test runs on the raw name, subset prefix included: a
      random prefix that happens to contain "BD" (say "XYBDEF") marks a
      regular embedding as bold although its cleaned name is unchanged. */
  lemma BoldPrefixQuirk(prefix: string, base: string)
    requires '+' !in prefix && Contains(Lower(prefix), "bd")
    ensures IsBoldName(prefix + "+" + base)
    ensures CleanFontName(prefix + "+" + base) == Some(RemoveSuffixes(base))
  {
    SubsetPrefixDropped(prefix, base);
    PrefixMakesBold(prefix, base);
  }

  lemma PrefixMakesBold(prefix: string, base: string)
    requires Contains(Lower(prefix), "bd")
    ensures IsBoldName(prefix + "+" + base)
  {
    assert prefix + "+" + base == prefix + ("+" + base);
    BoldPrefix(prefix, "+" + base);
  }

  /** "bd" anywhere in the lower-cased front of a name makes it bold. */
  lemma BoldPrefix(prefix: string, rest: string)
    requires Contains(Lower(prefix), "bd")
    ensures IsBoldName(prefix + rest)
  {
    LowerAppend(prefix, rest);
    ContainsAppendRight(Lower(prefix), Lower(rest), "bd");
    assert Contains(Lower(prefix + rest), "bd");
    ContainsHead(Lower(prefix), "bd");
    assert prefix + rest != "";
  }
}

=== FILE: glyphs.dfy ===
/** One positioned character as the PDF text layer reports it, the two
    coordinate axes, the size-band filter and the sort by coordinate
    (pdf_converter.py). */
module Glyphs {
  import opened Seqs

  /** A glyph: its text, horizontal extent [x0, x1], vertical extent
      [top, bottom] (y grows downwards), point size and raw font name
      ("" when the PDF layer reports none). */
  datatype Glyph = Glyph(
    text: string,
    x0: real, x1: real,
    top: real, bottom: real,
    size: real,
    fontname: string)

  /** Across: the x axis (x0 .. x1). Down: the y axis (top .. bottom). */
  datatype Axis = Across | Down

  /** Where a glyph starts on an axis: x0 or top. */
  function Start(g: Glyph, a: Axis): real
  {
    match a
    case Across => g.x0
    case Down => g.top
  }

  /** Where a glyph ends on an axis: x1 or bottom. */
  function End(g: Glyph, a: Axis): real
  {
    match a
    case Across => g.x1
    case Down => g.bottom
  }

  /** x is a whole number of tenths. */
  predicate Tenths(x: real)
  {
    (x * 10.0).Floor as real == x * 10.0
  }

  /** `round(x, 1)`, modelled as rounding to the nearest tenth with halves
      going up: a whole number of tenths within half a tenth of x. */
  function Round1(x: real): (r: real)
    ensures Tenths(r)
    ensures x - 0.05 < r <= x + 0.05
  {
    ((x * 10.0 + 0.5).Floor as real) / 10.0
  }

  /** The two properties pin the rounding down: a whole number of tenths
      within half a tenth of x (the upper end included) is Round1(x). */
  lemma RoundUnique(x: real, r: real)
    requires Tenths(r)
    requires x - 0.05 < r <= x + 0.05
    ensures r == Round1(x)
  {
    var n, m := (r * 10.0).Floor, (Round1(x) * 10.0).Floor;
    assert n as real == r * 10.0 && m as real == Round1(x) * 10.0;
    assert -1.0 < (n - m) as real < 1.0;
  }

  lemma RoundMonotone(x: real, y: real)
    requires x <= y
    ensures Round1(x) <= Round1(y)
  {
    assert (x * 10.0 + 0.5).Floor <= (y * 10.0 + 0.5).Floor;
  }

  /** The two accepted point-size bands: commentary around 13pt and
      scripture around 16pt, each +-0.5pt, bounds included. */
  predicate InBands(size: real)
  {
    (12.5 <= size <= 13.5) || (15.5 <= size <= 16.5)
  }

  /** The page's size filter: keeps exactly the glyphs in the two bands,
      in their original order. */
  function FilterSizes(gs: seq<Glyph>): (r: seq<Glyph>)
    ensures |r| <= |gs|
    ensures forall g :: g in r <==> g in gs && InBands(g.size)
    ensures forall g :: g in gs && InBands(g.size) ==> multiset(r)[g] == multiset(gs)[g]
    ensures forall g: Glyph :: !InBands(g.size) ==> multiset(r)[g] == 0
    ensures |r| == 0 <==> forall g :: g in gs ==> !InBands(g.size)
  {
    if |gs| == 0 then []
    else
      var rest := FilterSizes(gs[1..]);
      assert gs == [gs[0]] + gs[1..];
      if InBands(gs[0].size) then [gs[0]] + rest else rest
  }

  /** A page whose glyphs are all in the bands passes the filter whole. */
  lemma {:induction false} FilterKeepsAll(gs: seq<Glyph>)
    requires forall g :: g in gs ==> InBands(g.size)
    ensures FilterSizes(gs) == gs
  {
    if |gs| > 0 {
      assert gs[0] in gs;
      FilterKeepsAll(gs[1..]);
      assert gs == [gs[0]] + gs[1..];
    }
  }

  /** Keeping the glyphs of a concatenation is keeping those of each part. */
  lemma {:induction false} FilterSizesAppend(a: seq<Glyph>, b: seq<Glyph>)
    ensures FilterSizes(a + b) == FilterSizes(a) + FilterSizes(b)
    decreases |a|
  {
    if |a| > 0 {
      assert (a + b)[1..] == a[1..] + b;
      FilterSizesAppend(a[1..], b);
    } else {
      assert a + b == b;
    }
  }

  /** Glyphs in non-decreasing order of their start on axis a. */
  predicate SortedBy(gs: seq<Glyph>, a: Axis)
  {
    forall i, j :: 0 <= i < j < |gs| ==> Start(gs[i], a) <= Start(gs[j], a)
  }

  /** Inserts g before the first glyph that does not start earlier. */
  function Insert(g: Glyph, s: seq<Glyph>, a: Axis): (r: seq<Glyph>)
    requires SortedBy(s, a)
    ensures SortedBy(r, a)
    ensures multiset(r) == multiset(s) + multiset{g}
    ensures forall x :: x in r ==> x == g || x in s
  {
    if |s| == 0 then [g]
    else if Start(g, a) <= Start(s[0], a) then [g] + s
    else
      var rest := Insert(g, s[1..], a);
      InsertBehind(g, s, rest, a);
      [s[0]] + rest
  }

  /** Putting the first glyph back in front of the insertion into the rest. */
  lemma InsertBehind(g: Glyph, s: seq<Glyph>, rest: seq<Glyph>, a: Axis)
    requires |s| > 0 && SortedBy(s, a) && Start(s[0], a) < Start(g, a)
    requires SortedBy(rest, a) && multiset(rest) == multiset(s[1..]) + multiset{g}
    requires forall x :: x in rest ==> x == g || x in s[1..]
    ensures SortedBy([s[0]] + rest, a)
    ensures multiset([s[0]] + rest) == multiset(s) + multiset{g}
    ensures forall x :: x in [s[0]] + rest ==> x == g || x in s
  {
    assert s == [s[0]] + s[1..];
    forall y | y in rest ensures Start(s[0], a) <= Start(y, a) {
      if y != g {
        var j :| 0 <= j < |s[1..]| && s[1..][j] == y;
        assert s[j + 1] == y;
      }
    }
    ConsSorted(s[0], rest, a);
  }

  lemma ConsSorted(x: Glyph, s: seq<Glyph>, a: Axis)
    requires SortedBy(s, a)
    requires forall y :: y in s ==> Start(x, a) <= Start(y, a)
    ensures SortedBy([x] + s, a)
  {
    var r := [x] + s;
    forall i, j | 0 <= i < j < |r| ensures Start(r[i], a) <= Start(r[j], a) {
      if i > 0 {
        assert r[i] == s[i - 1] && r[j] == s[j - 1];
      } else {
        assert r[j] == s[j - 1] && r[j] in s;
      }
    }
  }

  /** `sorted(gs, key=...)` on the start coordinate of axis a: an ordered
      permutation of the input. Equal keys keep their input order. */
  function SortBy(gs: seq<Glyph>, a: Axis): (r: seq<Glyph>)
    ensures SortedBy(r, a)
    ensures multiset(r) == multiset(gs)
    ensures |r| == |gs|
  {
    if |gs| == 0 then []
    else
      var r := Insert(gs[0], SortBy(gs[1..], a), a);
      assert gs == [gs[0]] + gs[1..];
      assert |r| == |multiset(r)|;
      r
  }

  /** Sorting input that is already in order returns it unchanged. */
  lemma {:induction false} SortBySorted(gs: seq<Glyph>, a: Axis)
    requires SortedBy(gs, a)
    ensures SortBy(gs, a) == gs
  {
    if |gs| > 0 {
      SortBySorted(gs[1..], a);
      assert SortBy(gs[1..], a) == gs[1..];
      assert gs == [gs[0]] + gs[1..];
    }
  }

  /** The glyphs' texts joined in order: `"".join(c['text'] for c in gs)`. */
  function Texts(gs: seq<Glyph>): string
  {
    if |gs| == 0 then "" else Texts(Init(gs)) + Last(gs).text
  }

  lemma {:induction false} TextsAppend(a: seq<Glyph>, b: seq<Glyph>)
    ensures Texts(a + b) == Texts(a) + Texts(b)
    decreases |b|
  {
    if |b| == 0 {
      assert a + b == a;
    } else {
      assert Init(a + b) == a + Init(b);
      TextsAppend(a, Init(b));
    }
  }
}

=== FILE: grouping.dfy ===
/** The one scan the converter performs three times: walk a sequence of
    glyphs, keep the current group open while each glyph is "glued" to its
    predecessor, and close it otherwise. It cuts the sorted page into lines
    or columns, a line into style spans and a line into size runs
    (pdf_converter.py:194-208, 224-256, 433-454 and their horizontal
    twins). */
module Grouping {
  import opened Seqs
  import opened Glyphs
  import opened Fonts

  /** A glyph stays in the current line or column while its step on the
      primary axis is below this fraction of the previous glyph's size. */
  const LineTolerance: real := 0.5

  /** A gap wider than this multiple of the CURRENT glyph's size makes the
      span merger emit a space. */
  const GapFactor: real := 1.5

  /** The span merger's "no previous glyph yet" value of `last_y`/`last_x`. */
  const NoPrevious: real := -1.0

  /** Clustering test: next joins prev's line (axis Down) or column (axis
      Across) when it starts less than half of prev's size further on. */
  predicate SameLine(prev: Glyph, next: Glyph, a: Axis)
  {
    Start(next, a) - Start(prev, a) < prev.size * LineTolerance
  }

  /** The span merger's gap test before next, prev being the glyph just
      before it: prev's end is remembered as `last_y`/`last_x`, and a value
      equal to the "no previous glyph" marker disables the test. */
  predicate GapBefore(prev: Glyph, next: Glyph, a: Axis)
  {
    End(prev, a) != NoPrevious && Start(next, a) - End(prev, a) > next.size * GapFactor
  }

  /** What keeps two neighbours in one group. */
  datatype Glue =
    | ByLine(axis: Axis)  // clustering into lines or columns
    | ByStyle(axis: Axis) // HTML spans: no gap and the same derived style
    | BySize              // Markdown runs: the same rounded size

  predicate Glued(k: Glue, prev: Glyph, next: Glyph)
  {
    match k
    case ByLine(a) => SameLine(prev, next, a)
    case ByStyle(a) => !GapBefore(prev, next, a) && GlyphStyle(prev) == GlyphStyle(next)
    case BySize => Round1(prev.size) == Round1(next.size)
  }

  /** Every glyph of g is glued to its predecessor. */
  predicate Cohesive(g: seq<Glyph>, k: Glue)
  {
    forall j :: 0 < j < |g| ==> Glued(k, g[j - 1], g[j])
  }

  /** No glyph of g is glued to its predecessor. */
  predicate Scattered(g: seq<Glyph>, k: Glue)
  {
    forall j :: 0 < j < |g| ==> !Glued(k, g[j - 1], g[j])
  }

  /** The first glyph of b is not glued to the last glyph of a. */
  predicate Separated(a: seq<Glyph>, b: seq<Glyph>, k: Glue)
  {
    |a| > 0 && |b| > 0 && !Glued(k, Last(a), b[0])
  }

  /** gs cuts xs into non-empty consecutive pieces, exactly at the
      neighbours that are not glued. */
  predicate IsGroupingOf(xs: seq<Glyph>, gs: seq<seq<Glyph>>, k: Glue)
  {
    && Concat(gs) == xs
    && (forall i :: 0 <= i < |gs| ==> |gs[i]| > 0 && Cohesive(gs[i], k))
    && (forall i :: 0 < i < |gs| ==> Separated(gs[i - 1], gs[i], k))
  }

  /** The scan itself, one glyph at a time from the front, as the source's
      loop does: the next glyph extends the open group or opens a new one. */
  function Group(xs: seq<Glyph>, k: Glue): (gs: seq<seq<Glyph>>)
    ensures IsGroupingOf(xs, gs, k)
    decreases |xs|
  {
    if |xs| == 0 then []
    else if |xs| == 1 then
      assert Concat([xs]) == Concat([]) + xs;
      [xs]
    else
      var open := Group(Init(xs), k);
      var x := Last(xs);
      LastOfGrouping(Init(xs), open, k);
      if Glued(k, Last(Init(xs)), x) then
        ExtendLast(Init(xs), open, x, k);
        Init(open) + [Last(open) + [x]]
      else
        OpenNew(Init(xs), open, x, k);
        open + [[x]]
  }

  /** The last glyph of the last group is the last glyph of the input. */
  lemma LastOfGrouping(xs: seq<Glyph>, gs: seq<seq<Glyph>>, k: Glue)
    requires IsGroupingOf(xs, gs, k) && |xs| > 0
    ensures |gs| > 0 && Last(Last(gs)) == Last(xs)
  {
  }

  lemma ExtendLast(xs: seq<Glyph>, gs: seq<seq<Glyph>>, x: Glyph, k: Glue)
    requires IsGroupingOf(xs, gs, k) && |gs| > 0 && |xs| > 0
    requires Last(Last(gs)) == Last(xs) && Glued(k, Last(xs), x)
    ensures IsGroupingOf(xs + [x], Init(gs) + [Last(gs) + [x]], k)
  {
    var gs' := Init(gs) + [Last(gs) + [x]];
    assert gs == Init(gs) + [Last(gs)];
    ConcatSnoc(Init(gs), Last(gs) + [x]);
    assert Concat(gs) == Concat(Init(gs)) + Last(gs);
    ExtendSeparated(gs, x, k);
    ExtendCohesive(Last(gs), x, k);
  }

  lemma ExtendSeparated(gs: seq<seq<Glyph>>, x: Glyph, k: Glue)
    requires |gs| > 0
    requires forall i :: 0 <= i < |gs| ==> |gs[i]| > 0
    requires forall i :: 0 < i < |gs| ==> Separated(gs[i - 1], gs[i], k)
    ensures var gs' := Init(gs) + [Last(gs) + [x]];
      forall i :: 0 < i < |gs'| ==> Separated(gs'[i - 1], gs'[i], k)
  {
    var gs' := Init(gs) + [Last(gs) + [x]];
    forall i | 0 < i < |gs'| ensures Separated(gs'[i - 1], gs'[i], k) {
      assert Separated(gs[i - 1], gs[i], k);
      assert gs'[i - 1] == gs[i - 1];
      if i == |gs'| - 1 {
        assert gs'[i][0] == gs[i][0];
      } else {
        assert gs'[i] == gs[i];
      }
    }
  }

  lemma ExtendCohesive(g: seq<Glyph>, x: Glyph, k: Glue)
    requires |g| > 0 && Cohesive(g, k) && Glued(k, Last(g), x)
    ensures Cohesive(g + [x], k)
  {
    var l := g + [x];
    forall j | 0 < j < |l| ensures Glued(k, l[j - 1], l[j]) {
      if j < |l| - 1 {
        assert l[j - 1] == g[j - 1] && l[j] == g[j];
      }
    }
  }

  lemma OpenNew(xs: seq<Glyph>, gs: seq<seq<Glyph>>, x: Glyph, k: Glue)
    requires IsGroupingOf(xs, gs, k) && |gs| > 0 && |xs| > 0
    requires Last(Last(gs)) == Last(xs) && !Glued(k, Last(xs), x)
    ensures IsGroupingOf(xs + [x], gs + [[x]], k)
  {
    ConcatSnoc(gs, [x]);
    var gs' := gs + [[x]];
    forall i | 0 < i < |gs'| ensures Separated(gs'[i - 1], gs'[i], k) {
      if i < |gs| {
        assert Separated(gs[i - 1], gs[i], k);
      }
    }
  }

  /** The grouping is unique: whatever cuts xs into cohesive pieces exactly
      at the unglued neighbours is what the scan produces. */
  lemma {:induction false} GroupUnique(xs: seq<Glyph>, gs: seq<seq<Glyph>>, k: Glue)
    requires IsGroupingOf(xs, gs, k)
    ensures gs == Group(xs, k)
    decreases |xs|
  {
    if |xs| > 0 {
      LastOfGrouping(xs, gs, k);
      if |Last(gs)| == 1 {
        DropLastGroup(xs, gs, k);
        GroupUnique(Init(xs), Init(gs), k);
        UniqueNewGroup(xs, gs, k);
      } else {
        DropLastGlyph(xs, gs, k);
        GroupUnique(Init(xs), Init(gs) + [Init(Last(gs))], k);
        UniqueExtended(xs, gs, k);
      }
    }
  }

  lemma UniqueNewGroup(xs: seq<Glyph>, gs: seq<seq<Glyph>>, k: Glue)
    requires IsGroupingOf(xs, gs, k) && |xs| > 0 && |gs| > 0 && |Last(gs)| == 1
    requires Last(Last(gs)) == Last(xs)
    requires IsGroupingOf(Init(xs), Init(gs), k) && Init(gs) == Group(Init(xs), k)
    ensures gs == Group(xs, k)
  {
    var l := Last(gs);
    assert l == [Last(xs)];
    assert gs == Init(gs) + [l];
    if |xs| > 1 {
      LastOfGrouping(Init(xs), Init(gs), k);
      assert Separated(gs[|gs| - 2], gs[|gs| - 1], k);
      assert Last(Init(gs)) == gs[|gs| - 2];
    } else {
      assert Init(gs) == [];
      assert l == xs;
    }
  }

  lemma UniqueExtended(xs: seq<Glyph>, gs: seq<seq<Glyph>>, k: Glue)
    requires IsGroupingOf(xs, gs, k) && |xs| > 0 && |gs| > 0 && |Last(gs)| > 1
    requires Last(Last(gs)) == Last(xs)
    requires IsGroupingOf(Init(xs), Init(gs) + [Init(Last(gs))], k)
    requires Init(gs) + [Init(Last(gs))] == Group(Init(xs), k)
    ensures gs == Group(xs, k)
  {
    var l := Last(gs);
    var gs' := Init(gs) + [Init(l)];
    assert Cohesive(l, k);
    assert Glued(k, l[|l| - 2], l[|l| - 1]);
    LastOfGrouping(Init(xs), gs', k);
    assert Last(gs') == Init(l);
    assert l[|l| - 2] == Last(Init(xs));
    assert |xs| > 1;
    assert Init(gs') == Init(gs);
    assert Init(l) + [Last(xs)] == l;
    assert gs == Init(gs) + [l];
  }

  lemma DropLastGroup(xs: seq<Glyph>, gs: seq<seq<Glyph>>, k: Glue)
    requires IsGroupingOf(xs, gs, k) && |xs| > 0 && |gs| > 0 && |Last(gs)| == 1
    requires Last(Last(gs)) == Last(xs)
    ensures IsGroupingOf(Init(xs), Init(gs), k)
  {
    assert Concat(gs) == Concat(Init(gs)) + Last(gs);
    assert Last(gs) == [Last(xs)];
    assert xs == Init(xs) + [Last(xs)];
    var gs' := Init(gs);
    forall i | 0 < i < |gs'| ensures Separated(gs'[i - 1], gs'[i], k) {
      assert Separated(gs[i - 1], gs[i], k);
    }
  }

  lemma DropLastGlyph(xs: seq<Glyph>, gs: seq<seq<Glyph>>, k: Glue)
    requires IsGroupingOf(xs, gs, k) && |xs| > 0 && |gs| > 0 && |Last(gs)| > 1
    requires Last(Last(gs)) == Last(xs)
    ensures IsGroupingOf(Init(xs), Init(gs) + [Init(Last(gs))], k)
  {
    var l := Last(gs);
    var gs' := Init(gs) + [Init(l)];
    assert Concat(gs) == Concat(Init(gs)) + l;
    assert l == Init(l) + [Last(xs)];
    assert xs == Init(xs) + [Last(xs)];
    ConcatSnoc(Init(gs), Init(l));
    assert Concat(gs') == Init(xs);
    forall i | 0 < i < |gs'| ensures Separated(gs'[i - 1], gs'[i], k) {
      assert Separated(gs[i - 1], gs[i], k);
      if i == |gs'| - 1 {
        assert gs'[i][0] == l[0];
      }
    }
    forall i | 0 <= i < |gs'| ensures |gs'[i]| > 0 && Cohesive(gs'[i], k) {
      if i == |gs'| - 1 {
        assert Cohesive(l, k);
        forall j | 0 < j < |Init(l)| ensures Glued(k, Init(l)[j - 1], Init(l)[j]) {
          assert Init(l)[j - 1] == l[j - 1] && Init(l)[j] == l[j];
        }
      } else {
        assert gs'[i] == gs[i];
      }
    }
  }

  /** All neighbours glued: one group holding everything. */
  lemma GroupAllGlued(xs: seq<Glyph>, k: Glue)
    requires |xs| > 0 && Cohesive(xs, k)
    ensures Group(xs, k) == [xs]
  {
    assert Concat([xs]) == Concat([]) + xs;
    GroupUnique(xs, [xs], k);
  }

  /** No neighbours glued: one group per glyph. */
  lemma GroupNoneGlued(xs: seq<Glyph>, k: Glue)
    requires Scattered(xs, k)
    ensures Group(xs, k) == Singletons(xs)
    ensures |Group(xs, k)| == |xs|
  {
    var gs := Singletons(xs);
    ConcatSingletons(xs);
    forall i | 0 < i < |gs| ensures Separated(gs[i - 1], gs[i], k) {
      assert gs[i - 1] == [xs[i - 1]] && gs[i] == [xs[i]];
    }
    GroupUnique(xs, gs, k);
  }

  /** Each glyph in a group of its own. */
  function Singletons(xs: seq<Glyph>): seq<seq<Glyph>>
  {
    seq(|xs|, i requires 0 <= i < |xs| => [xs[i]])
  }

  lemma {:induction false} ConcatSingletons(xs: seq<Glyph>)
    ensures Concat(Singletons(xs)) == xs
    decreases |xs|
  {
    if |xs| > 0 {
      ConcatSingletons(Init(xs));
      assert Init(Singletons(xs)) == Singletons(Init(xs));
      assert xs == Init(xs) + [Last(xs)];
    }
  }
}

=== FILE: pages.dfy ===
/** One page through either converter: the size filter, the layout
    classifier, the clustering pass, the read-out order and, per cluster,
    the span merger (HTML) or the run merger (Markdown)
    (pdf_converter.py:169-343 and 392-509). */
module Pages {
  import opened Seqs
  import opened Text
  import opened Glyphs
  import opened Grouping
  import opened Clustering
  import opened StyleMerge
  import opened SizeMerge

  /** What the HTML converter writes for a page: a placeholder when the
      page has no glyphs, another when none is in the size bands, and
      otherwise one line of pieces per non-blank cluster. */
  datatype HtmlPage = NoText | NoMatchingSize | Lines(lines: seq<seq<Piece>>)

  /** A cluster whose joined text strips to nothing. */
  predicate Blank(c: seq<Glyph>)
  {
    AllSpace(Texts(c))
  }

  /** The clusters that hold text other than whitespace, in order. */
  function NonBlank(cs: seq<seq<Glyph>>): (r: seq<seq<Glyph>>)
    ensures |r| <= |cs|
    ensures forall c :: c in r <==> c in cs && !Blank(c)
  {
    if |cs| == 0 then []
    else NonBlank(Init(cs)) + if Blank(Last(cs)) then [] else [Last(cs)]
  }

  /** With no blank cluster, none is dropped. */
  lemma {:induction false} NonBlankKeepsAll(cs: seq<seq<Glyph>>)
    requires forall i :: 0 <= i < |cs| ==> !Blank(cs[i])
    ensures NonBlank(cs) == cs
    decreases |cs|
  {
    if |cs| > 0 {
      var n := |cs| - 1;
      NonBlankKeepsAll(Init(cs));
      assert Last(cs) == cs[n] && !Blank(cs[n]);
      assert NonBlank(cs) == Init(cs) + [cs[n]];
      assert Init(cs) + [cs[n]] == cs;
    }
  }

  /** The HTML lines of the clusters read out, a being the reading axis:
      one span line per cluster, a cluster whose text strips to nothing
      being skipped. */
  function HtmlLines(cs: seq<seq<Glyph>>, a: Axis): (r: seq<seq<Piece>>)
    ensures |r| <= |cs|
  {
    var kept := NonBlank(cs);
    seq(|kept|, i requires 0 <= i < |kept| => MergeSpans(kept[i], a))
  }

  function HtmlPageOf(chars: seq<Glyph>): HtmlPage
  {
    if |chars| == 0 then NoText
    else
      var f := FilterSizes(chars);
      if |f| == 0 then NoMatchingSize
      else
        var d := DetectLayout(f);
        Lines(HtmlLines(PageClusters(f, d), SecondaryAxis(d)))
  }

  /** The Markdown pieces of the clusters read out, in order. */
  function MdClusters(cs: seq<seq<Glyph>>, convert: string -> string): (r: seq<string>)
    ensures forall k :: 0 <= k < |r| ==> r[k] != ""
  {
    if |cs| == 0 then [] else MdClusters(Init(cs), convert) + MdCluster(Last(cs), convert)
  }

  /** What the Markdown converter writes for a page; None when it skips the
      page (no glyphs, or none in the size bands). */
  function MdPageOf(chars: seq<Glyph>, convert: string -> string): (r: Option<seq<string>>)
    ensures r.Some? ==> forall k :: 0 <= k < |r.value| ==> r.value[k] != ""
  {
    if |chars| == 0 then None
    else
      var f := FilterSizes(chars);
      if |f| == 0 then None
      else Some(MdClusters(PageClusters(f, DetectLayout(f)), convert))
  }

  /** The HTML placeholders: "no text" exactly for a page without glyphs,
      "no matching size" exactly for a page whose glyphs all fall outside
      both size bands. */
  lemma HtmlPlaceholders(chars: seq<Glyph>)
    ensures HtmlPageOf(chars).NoText? <==> |chars| == 0
    ensures HtmlPageOf(chars).NoMatchingSize? <==>
      |chars| > 0 && forall g :: g in chars ==> !InBands(g.size)
  {
  }

  /** The Markdown converter skips exactly the pages with no glyph in the
      size bands. */
  lemma MdSkipsEmptyPages(chars: seq<Glyph>, convert: string -> string)
    ensures MdPageOf(chars, convert).None? <==> forall g :: g in chars ==> !InBands(g.size)
  {
  }

  /** The clusters of a page hold every in-band glyph of the page as often
      as the page does, and no other glyph. */
  lemma PageKeepsBandGlyphs(chars: seq<Glyph>, g: Glyph)
    ensures var f := FilterSizes(chars);
      PartsMultiset(PageClusters(f, DetectLayout(f)))[g] == if InBands(g.size) then multiset(chars)[g] else 0
  {
    var f := FilterSizes(chars);
    PageKeepsEveryGlyph(f, DetectLayout(f));
    if InBands(g.size) && g !in chars {
      assert g !in f;
    }
  }

  /** No HTML line is blank before conversion: the raw text of every line
      written is not all whitespace. */
  lemma HtmlLinesNotBlank(cs: seq<seq<Glyph>>, a: Axis, k: nat)
    requires k < |HtmlLines(cs, a)|
    ensures Strip(RawText(HtmlLines(cs, a)[k])) != ""
  {
    var kept := NonBlank(cs);
    assert kept[k] in kept;
    SpansKeepText(kept[k], a);
  }

  /** A cluster that is not blank gets a line, in order: when no cluster is
      blank, line i is the merge of cluster i. */
  lemma HtmlKeepsNonBlank(cs: seq<seq<Glyph>>, a: Axis)
    requires forall i :: 0 <= i < |cs| ==> !Blank(cs[i])
    ensures |HtmlLines(cs, a)| == |cs|
    ensures forall i :: 0 <= i < |cs| ==> HtmlLines(cs, a)[i] == MergeSpans(cs[i], a)
  {
    NonBlankKeepsAll(cs);
  }

  /** Sorted glyphs that are all glued form one group. */
  lemma SortedAllGlued(gs: seq<Glyph>, a: Axis)
    requires |gs| > 0 && Cohesive(SortBy(gs, a), ByLine(a))
    ensures Group(SortBy(gs, a), ByLine(a)) == [SortBy(gs, a)]
  {
    GroupAllGlued(SortBy(gs, a), ByLine(a));
  }

  /** Glyphs that, in sorted order, each start within half the previous
      glyph's size form a single cluster. */
  lemma OneClusterWhenClose(gs: seq<Glyph>, d: Direction)
    requires |gs| > 0 && Cohesive(SortBy(gs, PrimaryAxis(d)), ByLine(PrimaryAxis(d)))
    ensures |Clusters(gs, d)| == 1 && Clusters(gs, d)[0] == SortBy(gs, PrimaryAxis(d))
  {
    SortedAllGlued(gs, PrimaryAxis(d));
  }

  /** Glyphs that, in sorted order, each start at least half the previous
      glyph's size further on get one cluster each. */
  lemma ClusterPerGlyphWhenSpread(gs: seq<Glyph>, d: Direction)
    requires Scattered(SortBy(gs, PrimaryAxis(d)), ByLine(PrimaryAxis(d)))
    ensures |Clusters(gs, d)| == |gs|
  {
    GroupNoneGlued(SortBy(gs, PrimaryAxis(d)), ByLine(PrimaryAxis(d)));
  }

  /** A cluster of one glyph becomes one Markdown piece: its converted,
      stripped text, in bold in the scripture tier, closing a paragraph. */
  lemma SingleGlyphParagraph(g: Glyph, convert: string -> string)
    ensures MdCluster([g], convert) == Emit(Round1(g.size), Strip(convert(g.text)), true)
  {
    assert Init([g]) == [];
    assert "" + g.text == g.text;
    assert RunWalk([g], Round1(g.size), convert) == RunState([], Round1(g.size), g.text);
  }

  /** Sorted glyphs none of which is glued to its predecessor form one
      cluster each. */
  lemma SortedSpreadClusters(gs: seq<Glyph>, d: Direction)
    requires SortedBy(gs, PrimaryAxis(d)) && Scattered(gs, ByLine(PrimaryAxis(d)))
    ensures Clusters(gs, d) == Singletons(gs)
  {
    SortBySorted(gs, PrimaryAxis(d));
    GroupNoneGlued(gs, ByLine(PrimaryAxis(d)));
  }

  /** Read out as lines, clusters of one glyph stay as they are. */
  lemma SingletonLines(xs: seq<Glyph>)
    ensures ReadingOrder(Singletons(xs), Horizontal) == Singletons(xs)
  {
    var cs := Singletons(xs);
    var out := ReadingOrder(cs, Horizontal);
    forall i | 0 <= i < |cs| ensures out[i] == cs[i] {
      SortBySorted(cs[i], Across);
    }
  }

  /** A short page whose glyphs, top to bottom, each start at least half
      the previous glyph's size lower is read as horizontal lines of one
      glyph each, in their order. */
  lemma SpreadShortPage(gs: seq<Glyph>)
    requires |gs| < MinGlyphsForVertical
    requires SortedBy(gs, Down) && Scattered(gs, ByLine(Down))
    ensures DetectLayout(gs) == Horizontal
    ensures PageClusters(gs, Horizontal) == Singletons(gs)
  {
    SortedSpreadClusters(gs, Horizontal);
    SingletonLines(gs);
  }

  /** Glyphs of size 16 whose tops are 17pt apart are sorted top to bottom
      and none shares a line with its predecessor. */
  lemma StackedSpread(gs: seq<Glyph>, t: real)
    requires forall i :: 0 <= i < |gs| ==> gs[i].size == 16.0 && gs[i].top == t + 17.0 * (i as real)
    ensures SortedBy(gs, Down) && Scattered(gs, ByLine(Down))
  {
    forall i, j | 0 <= i < j < |gs| ensures Start(gs[i], Down) <= Start(gs[j], Down) {
      assert 17.0 * (i as real) <= 17.0 * (j as real);
    }
    forall j | 0 < j < |gs| ensures !Glued(ByLine(Down), gs[j - 1], gs[j]) {
      assert Start(gs[j], Down) - Start(gs[j - 1], Down) == 17.0;
    }
  }

  /** Clusters of one glyph each are written as one paragraph per glyph. */
  lemma SingletonParagraphs(xs: seq<Glyph>, convert: string -> string)
    ensures forall i :: 0 <= i < |xs| ==>
      MdCluster(Singletons(xs)[i], convert) == Emit(Round1(xs[i].size), Strip(convert(xs[i].text)), true)
  {
    forall i | 0 <= i < |xs|
      ensures MdCluster(Singletons(xs)[i], convert) == Emit(Round1(xs[i].size), Strip(convert(xs[i].text)), true)
    {
      SingleGlyphParagraph(xs[i], convert);
    }
  }

  /** Six 16pt glyphs stacked 17pt apart in one column: with fewer than ten
      glyphs the page is classified horizontal, so every glyph becomes a
      line of its own, and each is written as its own bold paragraph. */
  lemma SixStackedGlyphs(gs: seq<Glyph>, t: real, convert: string -> string)
    requires |gs| == 6
    requires forall i :: 0 <= i < |gs| ==> gs[i].size == 16.0 && gs[i].top == t + 17.0 * (i as real)
    ensures FilterSizes(gs) == gs
    ensures DetectLayout(gs) == Horizontal
    ensures PageClusters(gs, Horizontal) == Singletons(gs)
    ensures MdPageOf(gs, convert) == Some(MdClusters(Singletons(gs), convert))
    ensures forall i :: 0 <= i < |gs| ==>
      MdCluster(Singletons(gs)[i], convert) == Emit(16.0, Strip(convert(gs[i].text)), true)
  {
    FilterKeepsAll(gs);
    StackedSpread(gs, t);
    SpreadShortPage(gs);
    SingletonParagraphs(gs, convert);
    assert Round1(16.0) == 16.0 by {
      assert (16.0 * 10.0 + 0.5).Floor == 160;
    }
  }
}

=== FILE: seqs.dfy ===
/** Small sequence vocabulary shared by the layout model: Option, flattening
    and the last element of a sequence. */
module Seqs {

  datatype Option<+T> = None | Some(value: T) {

    /** The carried value, or `default` when there is none. */
    function GetOr(default: T): T {
      match this
      case Some(v) => v
      case None => default
    }
  }

  function Last<T>(s: seq<T>): T
    requires |s| > 0
  {
    s[|s| - 1]
  }

  /** Drops the last element. */
  function Init<T>(s: seq<T>): seq<T>
    requires |s| > 0
  {
    s[..|s| - 1]
  }

  /** Concatenation of a sequence of sequences, peeled from the back so that
      appending a part is a definitional step. */
  function Concat<T>(parts: seq<seq<T>>): seq<T>
  {
    if |parts| == 0 then [] else Concat(Init(parts)) + Last(parts)
  }

  /** Two adjacent slices joined are the slice spanning both. */
  lemma SliceJoin<T>(s: seq<T>, i: nat, j: nat, k: nat)
    requires i <= j <= k <= |s|
    ensures s[i..j] + s[j..k] == s[i..k]
  {
  }

  lemma ConcatSnoc<T>(parts: seq<seq<T>>, p: seq<T>)
    ensures Concat(parts + [p]) == Concat(parts) + p
  {
    assert Init(parts + [p]) == parts;
  }

  lemma {:induction false} ConcatAppend<T>(a: seq<seq<T>>, b: seq<seq<T>>)
    ensures Concat(a + b) == Concat(a) + Concat(b)
    decreases |b|
  {
    if |b| == 0 {
      assert a + b == a;
    } else {
      assert a + b == (a + Init(b)) + [Last(b)];
      assert b == Init(b) + [Last(b)];
      ConcatSnoc(a + Init(b), Last(b));
      ConcatAppend(a, Init(b));
      ConcatSnoc(Init(b), Last(b));
    }
  }

  /** Every element of a part is an element of the concatenation. */
  lemma {:induction false} InConcat<T>(parts: seq<seq<T>>, i: nat, x: T)
    requires i < |parts| && x in parts[i]
    ensures x in Concat(parts)
    decreases |parts|
  {
    if i < |parts| - 1 {
      assert Init(parts)[i] == parts[i];
      InConcat(Init(parts), i, x);
    }
  }

  /** The multiset of a concatenation is the sum of the parts' multisets,
      so it does not depend on the order of the parts. */
  function PartsMultiset<T>(parts: seq<seq<T>>): multiset<T>
  {
    if |parts| == 0 then multiset{} else PartsMultiset(Init(parts)) + multiset(Last(parts))
  }

  lemma {:induction false} ConcatMultiset<T>(parts: seq<seq<T>>)
    ensures multiset(Concat(parts)) == PartsMultiset(parts)
    decreases |parts|
  {
    if |parts| > 0 {
      ConcatMultiset(Init(parts));
    }
  }

  /** Adding a part in front adds its multiset. */
  lemma {:induction false} PartsMultisetCons<T>(p: seq<T>, parts: seq<seq<T>>)
    ensures PartsMultiset([p] + parts) == multiset(p) + PartsMultiset(parts)
    decreases |parts|
  {
    if |parts| == 0 {
      assert Init([p]) == [];
    } else {
      assert Init([p] + parts) == [p] + Init(parts);
      PartsMultisetCons(p, Init(parts));
    }
  }

  function Reverse<T>(s: seq<T>): (r: seq<T>)
    ensures |r| == |s|
    ensures forall i :: 0 <= i < |s| ==> r[i] == s[|s| - 1 - i]
  {
    if |s| == 0 then [] else [Last(s)] + Reverse(Init(s))
  }
}

=== FILE: sizemerge.dfy ===
/** The Markdown run merger: one pass over a re-sorted cluster that collects
    text while the rounded size stays the same and, whenever it changes,
    writes the collected text converted and stripped, in bold when the size
    is in the scripture tier (pdf_converter.py:433-462 for columns,
    485-509 for lines). */
module SizeMerge {
  import opened Seqs
  import opened Text
  import opened Glyphs
  import opened Grouping

  /** Rounded sizes from this value up are the scripture tier, written in
      bold; smaller ones are commentary, written plain. */
  const ScriptureSize: real := 15.5

  /** How one run is written: its stripped text, in bold for the scripture
      tier, followed by a paragraph break when it closes the cluster;
      nothing when the stripped text is empty. */
  function Emit(size: real, s: string, closes: bool): (r: seq<string>)
    ensures |r| <= 1
    ensures |r| == 1 <==> s != ""
    ensures forall k :: 0 <= k < |r| ==> r[k] != ""
  {
    if s == "" then []
    else
      var body := if size >= ScriptureSize then "**" + s + "**" else s;
      [if closes then body + "\n\n" else body]
  }

  /** The loop's variables: pieces written so far, `current_size` and
      `current_text`. */
  datatype RunState = RunState(out: seq<string>, size: real, text: string)

  /** One iteration on glyph g: a new rounded size writes the collected
      text and starts collecting afresh; the same size extends it. */
  function RunStep(st: RunState, g: Glyph, convert: string -> string): (r: RunState)
    ensures st.out <= r.out && |r.out| <= |st.out| + 1
    ensures r.size == Round1(g.size)
    ensures r.size == st.size ==> r.out == st.out
  {
    var size := Round1(g.size);
    if size != st.size then
      RunState(st.out + Emit(st.size, Strip(convert(st.text)), false), size, g.text)
    else
      RunState(st.out, st.size, st.text + g.text)
  }

  /** The loop over the cluster, starting with size s0 and no text. It
      ends under the last glyph's rounded size, and every piece it writes
      has some text; when s0 is the first glyph's size, it writes fewer
      pieces than there are glyphs. */
  function RunWalk(c: seq<Glyph>, s0: real, convert: string -> string): (st: RunState)
    ensures |c| == 0 ==> st == RunState([], s0, "")
    ensures |c| > 0 ==> st.size == Round1(Last(c).size)
    ensures forall k :: 0 <= k < |st.out| ==> st.out[k] != ""
    ensures |c| > 0 && s0 == Round1(c[0].size) ==> |st.out| < |c|
  {
    if |c| == 0 then RunState([], s0, "") else RunStep(RunWalk(Init(c), s0, convert), Last(c), convert)
  }

  /** The merger on one re-sorted cluster: start at the first glyph's
      rounded size, run the loop, then write the last run with a paragraph
      break. An empty cluster writes nothing. */
  function MdCluster(c: seq<Glyph>, convert: string -> string): (r: seq<string>)
    ensures |r| <= |c|
    ensures forall k :: 0 <= k < |r| ==> r[k] != ""
  {
    if |c| == 0 then []
    else
      var st := RunWalk(c, Round1(c[0].size), convert);
      st.out + Emit(st.size, Strip(convert(st.text)), true)
  }

  // ---------------------------------------------------------------------
  // Reference description: one piece per size run

  /** The size runs of a cluster: maximal runs of one rounded size. */
  function Runs(c: seq<Glyph>): seq<seq<Glyph>>
  {
    Group(c, BySize)
  }

  /** The rounded size of a run. */
  function RunSize(run: seq<Glyph>): real
    requires |run| > 0
  {
    Round1(Last(run).size)
  }

  /** The pieces of runs that do not close the cluster. */
  function Middle(runs: seq<seq<Glyph>>, convert: string -> string): seq<string>
    requires forall i :: 0 <= i < |runs| ==> |runs[i]| > 0
  {
    if |runs| == 0 then []
    else Middle(Init(runs), convert) + Emit(RunSize(Last(runs)), Strip(convert(Texts(Last(runs)))), false)
  }

  /** The pieces of a cluster as its runs describe them: every run but the
      last as it is, the last one closing the paragraph. */
  function RunLayout(runs: seq<seq<Glyph>>, convert: string -> string): seq<string>
    requires forall i :: 0 <= i < |runs| ==> |runs[i]| > 0
  {
    if |runs| == 0 then []
    else Middle(Init(runs), convert) + Emit(RunSize(Last(runs)), Strip(convert(Texts(Last(runs)))), true)
  }

  /** The loop after a non-empty prefix: the runs before the last one are
      written, and the last run's text is pending under its size. */
  lemma {:induction false} RunWalkShape(c: seq<Glyph>, convert: string -> string)
    requires |c| > 0
    ensures var runs := Runs(c);
      && |runs| > 0
      && RunWalk(c, Round1(c[0].size), convert)
         == RunState(Middle(Init(runs), convert), RunSize(Last(runs)), Texts(Last(runs)))
    decreases |c|
  {
    var runs := Runs(c);
    LastOfGrouping(c, runs, BySize);
    if |c| == 1 {
      assert Init(c) == [];
      assert runs == [c];
      assert Init(runs) == [];
      assert Texts(c) == Texts([]) + c[0].text;
    } else {
      assert Init(c)[0] == c[0];
      RunWalkShape(Init(c), convert);
      LastOfGrouping(Init(c), Runs(Init(c)), BySize);
      if Glued(BySize, Last(Init(c)), Last(c)) {
        RunGlued(c, convert);
      } else {
        RunCut(c, convert);
      }
    }
  }

  lemma RunGlued(c: seq<Glyph>, convert: string -> string)
    requires |c| > 1 && Glued(BySize, Last(Init(c)), Last(c))
    requires var runs' := Runs(Init(c));
      && |runs'| > 0 && Last(Last(runs')) == Last(Init(c))
      && RunWalk(Init(c), Round1(c[0].size), convert)
         == RunState(Middle(Init(runs'), convert), RunSize(Last(runs')), Texts(Last(runs')))
    ensures var runs := Runs(c);
      && |runs| > 0
      && RunWalk(c, Round1(c[0].size), convert)
         == RunState(Middle(Init(runs), convert), RunSize(Last(runs)), Texts(Last(runs)))
  {
    var runs', x := Runs(Init(c)), Last(c);
    var runs := Runs(c);
    assert runs == Init(runs') + [Last(runs') + [x]];
    assert Init(runs) == Init(runs');
    assert Last(runs) == Last(runs') + [x];
    assert Init(Last(runs)) == Last(runs');
    assert Texts(Last(runs)) == Texts(Last(runs')) + x.text;
  }

  lemma RunCut(c: seq<Glyph>, convert: string -> string)
    requires |c| > 1 && !Glued(BySize, Last(Init(c)), Last(c))
    requires var runs' := Runs(Init(c));
      && |runs'| > 0 && Last(Last(runs')) == Last(Init(c))
      && RunWalk(Init(c), Round1(c[0].size), convert)
         == RunState(Middle(Init(runs'), convert), RunSize(Last(runs')), Texts(Last(runs')))
    ensures var runs := Runs(c);
      && |runs| > 0
      && RunWalk(c, Round1(c[0].size), convert)
         == RunState(Middle(Init(runs), convert), RunSize(Last(runs)), Texts(Last(runs)))
  {
    var runs', x := Runs(Init(c)), Last(c);
    var runs := Runs(c);
    assert runs == runs' + [[x]];
    assert Init(runs) == runs';
    assert Texts([x]) == Texts([]) + x.text;
  }

  /** The merger writes exactly the reference pieces of the cluster's size
      runs. */
  lemma MdIsRunLayout(c: seq<Glyph>, convert: string -> string)
    ensures MdCluster(c, convert) == RunLayout(Runs(c), convert)
  {
    if |c| > 0 {
      RunWalkShape(c, convert);
    }
  }

  // ---------------------------------------------------------------------
  // Properties of the runs

  /** The runs' texts joined in order. */
  function RunTexts(runs: seq<seq<Glyph>>): string
  {
    if |runs| == 0 then "" else RunTexts(Init(runs)) + Texts(Last(runs))
  }

  lemma {:induction false} RunTextsConcat(runs: seq<seq<Glyph>>)
    ensures RunTexts(runs) == Texts(Concat(runs))
    decreases |runs|
  {
    if |runs| > 0 {
      RunTextsConcat(Init(runs));
      TextsAppend(Concat(Init(runs)), Last(runs));
    }
  }

  /** The runs' texts joined in order are the cluster's glyph texts. */
  lemma RunsKeepText(c: seq<Glyph>)
    ensures RunTexts(Runs(c)) == Texts(c)
  {
    RunTextsConcat(Runs(c));
  }

  /** Every glyph of a run has the run's rounded size. */
  lemma {:induction false} RunUniform(run: seq<Glyph>, j: nat)
    requires Cohesive(run, BySize) && j < |run|
    ensures Round1(run[j].size) == RunSize(run)
    decreases |run| - j
  {
    if j < |run| - 1 {
      RunUniform(run, j + 1);
      assert Glued(BySize, run[j], run[j + 1]);
    }
  }

  /** Each run is of one rounded size, and neighbouring runs differ in it. */
  lemma RunsOfOneSize(c: seq<Glyph>)
    ensures var runs := Runs(c);
      && (forall i, j :: 0 <= i < |runs| && 0 <= j < |runs[i]| ==> Round1(runs[i][j].size) == RunSize(runs[i]))
      && (forall i :: 0 < i < |runs| ==> RunSize(runs[i - 1]) != RunSize(runs[i]))
  {
    var runs: seq<seq<Glyph>> := Runs(c);
    forall i: nat, j: nat | i < |runs| && j < |runs[i]| ensures Round1(runs[i][j].size) == RunSize(runs[i]) {
      RunUniform(runs[i], j);
    }
    forall i | 0 < i < |runs| ensures RunSize(runs[i - 1]) != RunSize(runs[i]) {
      assert Separated(runs[i - 1], runs[i], BySize);
      RunUniform(runs[i], 0);
    }
  }

  /** The size filter leaves only two tiers: a glyph of the 16pt band
      rounds into the scripture tier, one of the 13pt band does not. */
  lemma TierFollowsBand(size: real)
    requires InBands(size)
    ensures Round1(size) >= ScriptureSize <==> 15.5 <= size <= 16.5
  {
    if 15.5 <= size {
      RoundMonotone(15.5, size);
      assert (15.5 * 10.0 + 0.5).Floor == 155;
    } else {
      RoundMonotone(size, 13.5);
      assert (13.5 * 10.0 + 0.5).Floor == 135;
    }
  }

  // ---------------------------------------------------------------------
  // Paragraph breaks

  predicate EndsWithBreak(s: string)
  {
    |s| > 0 && s[|s| - 1] == '\n'
  }

  /** A piece of a run that does not close the cluster never ends in a
      line break: stripped text ends in a non-space, bold text in '*'. */
  lemma MiddleNoBreak(runs: seq<seq<Glyph>>, convert: string -> string, k: nat)
    requires forall i :: 0 <= i < |runs| ==> |runs[i]| > 0
    requires k < |Middle(runs, convert)|
    ensures !EndsWithBreak(Middle(runs, convert)[k])
    decreases |runs|
  {
    var front := Middle(Init(runs), convert);
    var s := Strip(convert(Texts(Last(runs))));
    if k < |front| {
      assert Middle(runs, convert)[k] == front[k];
      MiddleNoBreak(Init(runs), convert, k);
    } else {
      assert Middle(runs, convert)[k] == Emit(RunSize(Last(runs)), s, false)[0];
      assert IsSpace('\n');
    }
  }

  /** Only the cluster's final run ends a paragraph: no other piece ends in
      a line break, and the last piece ends in one exactly when the final
      run has text left after stripping. */
  lemma OnlyLastRunBreaks(c: seq<Glyph>, convert: string -> string)
    requires |c| > 0
    ensures var out, runs := MdCluster(c, convert), Runs(c);
      && |runs| > 0
      && (forall k :: 0 <= k < |out| - 1 ==> !EndsWithBreak(out[k]))
      && (|out| > 0 && EndsWithBreak(Last(out)) <==> Strip(convert(Texts(Last(runs)))) != "")
  {
    MdIsRunLayout(c, convert);
    LastOfGrouping(c, Runs(c), BySize);
    LayoutBreaks(Runs(c), convert);
  }

  /** The paragraph-break property on the reference pieces of some runs. */
  lemma LayoutBreaks(runs: seq<seq<Glyph>>, convert: string -> string)
    requires |runs| > 0 && forall i :: 0 <= i < |runs| ==> |runs[i]| > 0
    ensures var out := RunLayout(runs, convert);
      && (forall k :: 0 <= k < |out| - 1 ==> !EndsWithBreak(out[k]))
      && (|out| > 0 && EndsWithBreak(Last(out)) <==> Strip(convert(Texts(Last(runs)))) != "")
  {
    var out := RunLayout(runs, convert);
    var mid := Middle(Init(runs), convert);
    var s := Strip(convert(Texts(Last(runs))));
    var fin := Emit(RunSize(Last(runs)), s, true);
    assert out == mid + fin;
    forall k | 0 <= k < |out| - 1 ensures !EndsWithBreak(out[k]) {
      assert out[k] == mid[k];
      MiddleNoBreak(Init(runs), convert, k);
    }
    if s == "" {
      if |out| > 0 {
        assert Last(out) == mid[|mid| - 1];
        MiddleNoBreak(Init(runs), convert, |mid| - 1);
      }
    } else {
      assert Last(out) == fin[0];
    }
  }
}

=== FILE: stylemerge.dfy ===
/** The HTML span merger: one pass over a re-sorted cluster that collects
    text into a span while the derived style stays the same, closes the span
    when the style changes, and writes a single space where the gap from the
    previous glyph is large (pdf_converter.py:215-265 for columns,
    291-340 for lines). */
module StyleMerge {
  import opened Seqs
  import opened Glyphs
  import opened Fonts
  import opened Grouping

  /** What the merger appends to a line: an inserted space, or a span of
      raw (not yet converted) text with the style it was collected under. */
  datatype Piece = Space | Span(style: Option<Style>, text: string)

  /** The loop's variables: the pieces written so far, `span_text`,
      `current_style` and `last_y`/`last_x`. */
  datatype SpanState = SpanState(out: seq<Piece>, text: string, style: Option<Style>, lastEnd: real)

  /** Before the first glyph: nothing written, no style, no previous end. */
  const Start0: SpanState := SpanState([], "", None, NoPrevious)

  /** Writes out the collected text as a span, if there is any. */
  function Flush(st: SpanState): seq<Piece>
  {
    if st.text == "" then st.out else st.out + [Span(st.style, st.text)]
  }

  /** One iteration of the loop on glyph g: gap test against the previous
      end (flush, then a space), style test (flush, then switch style),
      then collect g's text and remember where g ends. */
  function Step(st: SpanState, g: Glyph, a: Axis): (r: SpanState)
    ensures st.out <= r.out
    ensures r.style == Some(GlyphStyle(g)) && r.lastEnd == End(g, a)
  {
    var st1 :=
      if st.lastEnd != NoPrevious && Start(g, a) - st.lastEnd > g.size * GapFactor
      then SpanState(Flush(st) + [Space], "", st.style, st.lastEnd)
      else st;
    var st2 :=
      if st1.style != Some(GlyphStyle(g))
      then SpanState(Flush(st1), "", Some(GlyphStyle(g)), st1.lastEnd)
      else st1;
    SpanState(st2.out, st2.text + g.text, st2.style, End(g, a))
  }

  /** The loop over the cluster's glyphs, in order. Afterwards the current
      style and the remembered end are the last glyph's. */
  function Walk(c: seq<Glyph>, a: Axis): (st: SpanState)
    ensures |c| == 0 ==> st == Start0
    ensures |c| > 0 ==> st.style == Some(GlyphStyle(Last(c))) && st.lastEnd == End(Last(c), a)
  {
    if |c| == 0 then Start0 else Step(Walk(Init(c), a), Last(c), a)
  }

  /** A glyph with no gap before it and the current style extends the
      pending text. */
  lemma StepKeeps(st: SpanState, g: Glyph, a: Axis)
    requires !(st.lastEnd != NoPrevious && Start(g, a) - st.lastEnd > g.size * GapFactor)
    requires st.style == Some(GlyphStyle(g))
    ensures Step(st, g, a) == SpanState(st.out, st.text + g.text, st.style, End(g, a))
  {
  }

  /** A glyph after a large gap, or in another style, closes the pending
      span (and writes a space for the gap) and starts a new one. */
  lemma StepBreaks(st: SpanState, g: Glyph, a: Axis, gap: bool)
    requires gap == (st.lastEnd != NoPrevious && Start(g, a) - st.lastEnd > g.size * GapFactor)
    requires gap || st.style != Some(GlyphStyle(g))
    ensures Step(st, g, a) ==
      SpanState(Flush(st) + (if gap then [Space] else []), g.text, Some(GlyphStyle(g)), End(g, a))
  {
    if gap {
      var st1 := SpanState(Flush(st) + [Space], "", st.style, st.lastEnd);
      assert Flush(st1) == st1.out;
    } else {
      assert Flush(st) + [] == Flush(st);
    }
  }

  /** The merger on one re-sorted cluster, a being the reading axis (Down
      in a column, Across in a line): the loop and the final flush. */
  function MergeSpans(c: seq<Glyph>, a: Axis): seq<Piece>
  {
    Flush(Walk(c, a))
  }

  // ---------------------------------------------------------------------
  // Reference description: one span per segment of the cluster

  /** A large gap separates two consecutive segments. */
  predicate GapBetween(prev: seq<Glyph>, next: seq<Glyph>, a: Axis)
  {
    |prev| > 0 && |next| > 0 && GapBefore(Last(prev), next[0], a)
  }

  /** The space written in front of the last segment, if any. */
  function LeadOf(segs: seq<seq<Glyph>>, a: Axis): seq<Piece>
  {
    if |segs| > 1 && GapBetween(segs[|segs| - 2], Last(segs), a) then [Space] else []
  }

  /** The span a segment produces: its text under its style; nothing when
      its text is empty. */
  function SpanOf(seg: seq<Glyph>): seq<Piece>
  {
    if |seg| == 0 || Texts(seg) == "" then [] else [Span(Some(GlyphStyle(Last(seg))), Texts(seg))]
  }

  /** The pieces of a line as its segments describe them. */
  function Layout(segs: seq<seq<Glyph>>, a: Axis): seq<Piece>
  {
    if |segs| == 0 then [] else Layout(Init(segs), a) + LeadOf(segs, a) + SpanOf(Last(segs))
  }

  /** The segments of a cluster: maximal runs without a large gap and with
      one style. */
  function Segments(c: seq<Glyph>, a: Axis): seq<seq<Glyph>>
  {
    Group(c, ByStyle(a))
  }

  /** The loop state the reference layout predicts after a prefix whose
      segments are segs and whose last glyph is last: everything before
      the last segment written, the space in front of it too, and the last
      segment's text pending under last's style. */
  function Shape(segs: seq<seq<Glyph>>, last: Glyph, a: Axis): SpanState
    requires |segs| > 0
  {
    SpanState(Layout(Init(segs), a) + LeadOf(segs, a), Texts(Last(segs)), Some(GlyphStyle(last)), End(last, a))
  }

  /** The loop after every non-empty prefix is in the predicted state. */
  lemma {:induction false} WalkShape(c: seq<Glyph>, a: Axis)
    requires |c| > 0
    ensures |Segments(c, a)| > 0
    ensures Walk(c, a) == Shape(Segments(c, a), Last(c), a)
    decreases |c|
  {
    LastOfGrouping(c, Segments(c, a), ByStyle(a));
    if |c| == 1 {
      WalkOne(c, a);
    } else {
      WalkShape(Init(c), a);
      LastOfGrouping(Init(c), Segments(Init(c), a), ByStyle(a));
      if Glued(ByStyle(a), Last(Init(c)), Last(c)) {
        WalkGlued(c, a);
      } else {
        WalkCut(c, a);
      }
    }
  }

  lemma WalkOne(c: seq<Glyph>, a: Axis)
    requires |c| == 1
    ensures Segments(c, a) == [c]
    ensures Walk(c, a) == Shape([c], c[0], a)
  {
    assert Init(c) == [];
    assert Texts(c) == Texts([]) + c[0].text;
    StepBreaks(Start0, c[0], a, false);
    assert Flush(Start0) == [];
    assert Init([c]) == [];
  }

  /** Segment bookkeeping when the last glyph joins the last segment. */
  lemma GluedSegments(c: seq<Glyph>, a: Axis)
    requires |c| > 1 && Glued(ByStyle(a), Last(Init(c)), Last(c))
    ensures var segs', segs := Segments(Init(c), a), Segments(c, a);
      && |segs'| > 0 && |segs| > 0
      && Init(segs) == Init(segs')
      && LeadOf(segs, a) == LeadOf(segs', a)
      && Texts(Last(segs)) == Texts(Last(segs')) + Last(c).text
  {
    var segs', x := Segments(Init(c), a), Last(c);
    var segs := Segments(c, a);
    LastOfGrouping(Init(c), segs', ByStyle(a));
    assert segs == Init(segs') + [Last(segs') + [x]];
    assert Last(segs) == Last(segs') + [x];
    assert Init(Last(segs)) == Last(segs');
    if |segs| > 1 {
      assert segs[|segs| - 2] == segs'[|segs'| - 2];
      assert Last(segs)[0] == Last(segs')[0];
    }
  }

  lemma WalkGlued(c: seq<Glyph>, a: Axis)
    requires |c| > 1 && |Segments(Init(c), a)| > 0
    requires Walk(Init(c), a) == Shape(Segments(Init(c), a), Last(Init(c)), a)
    requires Glued(ByStyle(a), Last(Init(c)), Last(c))
    ensures |Segments(c, a)| > 0
    ensures Walk(c, a) == Shape(Segments(c, a), Last(c), a)
  {
    GluedSegments(c, a);
    var st, x := Walk(Init(c), a), Last(c);
    StepKeeps(st, x, a);
    var segs', segs := Segments(Init(c), a), Segments(c, a);
    assert st.text + x.text == Texts(Last(segs));
  }

  /** Segment bookkeeping when the last glyph opens a segment of its own. */
  lemma CutSegments(c: seq<Glyph>, a: Axis)
    requires |c| > 1 && !Glued(ByStyle(a), Last(Init(c)), Last(c))
    ensures var segs', segs := Segments(Init(c), a), Segments(c, a);
      && |segs'| > 0 && |segs| > 0
      && Init(segs) == segs'
      && Last(segs) == [Last(c)]
      && Texts(Last(segs)) == Last(c).text
      && LeadOf(segs, a) == if GapBefore(Last(Init(c)), Last(c), a) then [Space] else []
  {
    var segs', x := Segments(Init(c), a), Last(c);
    var segs := Segments(c, a);
    LastOfGrouping(Init(c), segs', ByStyle(a));
    assert segs == segs' + [[x]];
    assert segs[|segs| - 2] == Last(segs');
    assert Texts([x]) == Texts([]) + x.text;
  }

  /** Closing the pending text of the predicted state writes the layout of
      all segments so far. */
  lemma FlushShape(segs: seq<seq<Glyph>>, last: Glyph, a: Axis)
    requires |segs| > 0 && |Last(segs)| > 0 && Last(Last(segs)) == last
    ensures Flush(Shape(segs, last, a)) == Layout(segs, a)
  {
  }

  lemma WalkCut(c: seq<Glyph>, a: Axis)
    requires |c| > 1 && |Segments(Init(c), a)| > 0
    requires Walk(Init(c), a) == Shape(Segments(Init(c), a), Last(Init(c)), a)
    requires !Glued(ByStyle(a), Last(Init(c)), Last(c))
    ensures |Segments(c, a)| > 0
    ensures Walk(c, a) == Shape(Segments(c, a), Last(c), a)
  {
    CutSegments(c, a);
    var st, x := Walk(Init(c), a), Last(c);
    var segs' := Segments(Init(c), a);
    var gap := st.lastEnd != NoPrevious && Start(x, a) - st.lastEnd > x.size * GapFactor;
    assert gap == GapBefore(Last(Init(c)), x, a);
    StepBreaks(st, x, a, gap);
    LastOfGrouping(Init(c), segs', ByStyle(a));
    FlushShape(segs', Last(Init(c)), a);
  }

  /** The merger writes exactly the reference layout of the cluster's
      segments: a span boundary at every style change and every large gap,
      a space at every large gap, and nothing else. */
  lemma MergeIsLayout(c: seq<Glyph>, a: Axis)
    ensures MergeSpans(c, a) == Layout(Segments(c, a), a)
  {
    if |c| > 0 {
      WalkShape(c, a);
      LastOfGrouping(c, Segments(c, a), ByStyle(a));
      FlushShape(Segments(c, a), Last(c), a);
    }
  }

  // ---------------------------------------------------------------------
  // Consequences for the emitted text

  /** The line's text as written, with the span tags left out and each
      span's text passed through `convert`. */
  function Rendered(ps: seq<Piece>, convert: string -> string): string
  {
    if |ps| == 0 then ""
    else Rendered(Init(ps), convert) + match Last(ps) { case Space => " " case Span(_, t) => convert(t) }
  }

  /** The identity conversion. */
  function Verbatim(s: string): string
  {
    s
  }

  /** The span texts with the spaces removed. */
  function RawText(ps: seq<Piece>): string
  {
    if |ps| == 0 then "" else RawText(Init(ps)) + match Last(ps) { case Space => "" case Span(_, t) => t }
  }

  /** The glyph texts in order with one space before each glyph whose gap
      from its predecessor exceeds 1.5 times its own size. */
  function Spaced(c: seq<Glyph>, a: Axis): string
  {
    if |c| == 0 then ""
    else if |c| > 1 && GapBefore(Last(Init(c)), Last(c), a) then Spaced(Init(c), a) + " " + Last(c).text
    else Spaced(Init(c), a) + Last(c).text
  }

  lemma RenderedAppend(ps: seq<Piece>, qs: seq<Piece>, convert: string -> string)
    ensures Rendered(ps + qs, convert) == Rendered(ps, convert) + Rendered(qs, convert)
    decreases |qs|
  {
    if |qs| > 0 {
      assert Init(ps + qs) == ps + Init(qs);
    } else {
      assert ps + qs == ps;
    }
  }

  lemma RawTextAppend(ps: seq<Piece>, qs: seq<Piece>)
    ensures RawText(ps + qs) == RawText(ps) + RawText(qs)
    decreases |qs|
  {
    if |qs| > 0 {
      assert Init(ps + qs) == ps + Init(qs);
    } else {
      assert ps + qs == ps;
    }
  }

  /** Loop invariant behind the text properties: written plus pending text
      is the spaced text of the prefix, and without the spaces it is the
      plain text of the prefix. */
  lemma {:induction false} WalkText(c: seq<Glyph>, a: Axis)
    ensures Rendered(Walk(c, a).out, Verbatim) + Walk(c, a).text == Spaced(c, a)
    ensures RawText(Walk(c, a).out) + Walk(c, a).text == Texts(c)
    ensures Walk(c, a).lastEnd == if |c| == 0 then NoPrevious else End(Last(c), a)
    decreases |c|
  {
    if |c| > 0 {
      WalkText(Init(c), a);
      StepText(Walk(Init(c), a), c, a);
    }
  }

  lemma StepText(st: SpanState, c: seq<Glyph>, a: Axis)
    requires |c| > 0
    requires Rendered(st.out, Verbatim) + st.text == Spaced(Init(c), a)
    requires RawText(st.out) + st.text == Texts(Init(c))
    requires st.lastEnd == if |Init(c)| == 0 then NoPrevious else End(Last(Init(c)), a)
    ensures Rendered(Step(st, Last(c), a).out, Verbatim) + Step(st, Last(c), a).text == Spaced(c, a)
    ensures RawText(Step(st, Last(c), a).out) + Step(st, Last(c), a).text == Texts(c)
    ensures Step(st, Last(c), a).lastEnd == End(Last(c), a)
  {
    var g := Last(c);
    var gap := st.lastEnd != NoPrevious && Start(g, a) - st.lastEnd > g.size * GapFactor;
    SpacedStep(c, a, gap);
    if !gap && st.style == Some(GlyphStyle(g)) {
      StepKeeps(st, g, a);
      KeepText(st, g.text, Spaced(Init(c), a), Texts(Init(c)));
    } else {
      StepBreaks(st, g, a, gap);
      BreakText(st, g.text, gap);
    }
  }

  lemma KeepText(st: SpanState, t: string, spaced: string, plain: string)
    requires Rendered(st.out, Verbatim) + st.text == spaced
    requires RawText(st.out) + st.text == plain
    ensures Rendered(st.out, Verbatim) + (st.text + t) == spaced + t
    ensures RawText(st.out) + (st.text + t) == plain + t
  {
  }

  lemma SpacedStep(c: seq<Glyph>, a: Axis, gap: bool)
    requires |c| > 0
    requires gap == (|c| > 1 && GapBefore(Last(Init(c)), Last(c), a))
    ensures Spaced(c, a) == Spaced(Init(c), a) + (if gap then " " else "") + Last(c).text
    ensures Texts(c) == Texts(Init(c)) + Last(c).text
  {
  }

  lemma BreakText(st: SpanState, t: string, gap: bool)
    ensures var out := Flush(st) + (if gap then [Space] else []);
      && Rendered(out, Verbatim) + t == Rendered(st.out, Verbatim) + st.text + (if gap then " " else "") + t
      && RawText(out) + t == RawText(st.out) + st.text + t
  {
    FlushText(st);
    if gap {
      RenderedAppend(Flush(st), [Space], Verbatim);
      RawTextAppend(Flush(st), [Space]);
      assert Rendered([Space], Verbatim) == Rendered([], Verbatim) + " ";
      assert RawText([Space]) == RawText([]) + "";
    } else {
      assert Flush(st) + [] == Flush(st);
    }
  }

  /** Flushing moves the pending text into the written pieces. */
  lemma FlushText(st: SpanState)
    ensures Rendered(Flush(st), Verbatim) == Rendered(st.out, Verbatim) + st.text
    ensures RawText(Flush(st)) == RawText(st.out) + st.text
  {
    if st.text != "" {
      assert Init(st.out + [Span(st.style, st.text)]) == st.out;
    }
  }

  /** With the inserted spaces removed, the spans' texts are the cluster's
      glyph texts in order. */
  lemma SpansKeepText(c: seq<Glyph>, a: Axis)
    ensures RawText(MergeSpans(c, a)) == Texts(c)
  {
    WalkText(c, a);
    FlushText(Walk(c, a));
  }

  /** Written out, the line is the glyph texts in order with one space
      exactly before each glyph that follows a large gap. */
  lemma SpacesAtGaps(c: seq<Glyph>, a: Axis)
    ensures Rendered(MergeSpans(c, a), Verbatim) == Spaced(c, a)
  {
    WalkText(c, a);
    FlushText(Walk(c, a));
  }

  /** A cluster in one style without large gaps and with some text becomes
      exactly one span. */
  lemma OneStyleOneSpan(c: seq<Glyph>, a: Axis)
    requires |c| > 0 && Texts(c) != ""
    requires forall j :: 0 < j < |c| ==> !GapBefore(c[j - 1], c[j], a)
    requires forall j :: 0 <= j < |c| ==> GlyphStyle(c[j]) == GlyphStyle(c[0])
    ensures MergeSpans(c, a) == [Span(Some(GlyphStyle(c[0])), Texts(c))]
  {
    UniformIsCohesive(c, a);
    GroupAllGlued(c, ByStyle(a));
    MergeIsLayout(c, a);
    LayoutOne(c, a);
  }

  lemma UniformIsCohesive(c: seq<Glyph>, a: Axis)
    requires forall j :: 0 < j < |c| ==> !GapBefore(c[j - 1], c[j], a)
    requires forall j :: 0 <= j < |c| ==> GlyphStyle(c[j]) == GlyphStyle(c[0])
    ensures Cohesive(c, ByStyle(a))
  {
    forall j | 0 < j < |c| ensures Glued(ByStyle(a), c[j - 1], c[j]) {
      assert GlyphStyle(c[j - 1]) == GlyphStyle(c[0]) == GlyphStyle(c[j]);
    }
  }

  lemma LayoutOne(c: seq<Glyph>, a: Axis)
    requires |c| > 0 && Texts(c) != "" && GlyphStyle(Last(c)) == GlyphStyle(c[0])
    ensures Layout([c], a) == [Span(Some(GlyphStyle(c[0])), Texts(c))]
  {
    assert Init([c]) == [];
    assert LeadOf([c], a) == [];
    assert Layout([c], a) == [] + [] + SpanOf(c);
  }

  /** Every span the merger writes carries a style and some text. */
  lemma SpansWellFormed(c: seq<Glyph>, a: Axis, k: nat)
    requires k < |MergeSpans(c, a)| && MergeSpans(c, a)[k].Span?
    ensures MergeSpans(c, a)[k].style.Some? && MergeSpans(c, a)[k].text != ""
  {
    MergeIsLayout(c, a);
    LayoutSpans(Segments(c, a), a, k);
  }

  lemma {:induction false} LayoutSpans(segs: seq<seq<Glyph>>, a: Axis, k: nat)
    requires k < |Layout(segs, a)| && Layout(segs, a)[k].Span?
    ensures Layout(segs, a)[k].style.Some? && Layout(segs, a)[k].text != ""
    decreases |segs|
  {
    var front := Layout(Init(segs), a) + LeadOf(segs, a);
    assert Layout(segs, a) == front + SpanOf(Last(segs));
    if k < |Layout(Init(segs), a)| {
      assert Layout(segs, a)[k] == Layout(Init(segs), a)[k];
      LayoutSpans(Init(segs), a, k);
    } else if k >= |front| {
      assert Layout(segs, a)[k] == SpanOf(Last(segs))[k - |front|];
    }
  }
}

=== FILE: text.dfy ===
/** The Python string operations the converter relies on: substring test,
    `str.replace(p, '')`, `str.split(c, 1)[1]`, `str.strip()` and
    `str.lower()`. */
module Text {

  /** `p in s` for strings: p occurs somewhere in s. */
  predicate Contains(s: string, p: string)
    decreases |s|
  {
    if p <= s then true
    else if |s| == 0 then false
    else Contains(s[1..], p)
  }

  /** p starts at position i of s. */
  predicate MatchAt(s: string, p: string, i: nat)
  {
    i + |p| <= |s| && s[i..i + |p|] == p
  }

  /** p does not occur in s when no position of s starts a copy of it. */
  lemma {:induction false} NoMatchNotContains(s: string, p: string)
    requires forall i: nat :: !MatchAt(s, p, i)
    ensures !Contains(s, p)
    decreases |s|
  {
    assert !MatchAt(s, p, 0);
    if |s| > 0 {
      forall i: nat ensures !MatchAt(s[1..], p, i) {
        assert !MatchAt(s, p, i + 1);
        if i + |p| <= |s[1..]| {
          assert s[1..][i..i + |p|] == s[i + 1..i + 1 + |p|];
        }
      }
      NoMatchNotContains(s[1..], p);
    }
  }

  /** An occurrence of p brings p's first character along. */
  lemma {:induction false} ContainsHead(s: string, p: string)
    requires |p| > 0 && Contains(s, p)
    ensures p[0] in s
    decreases |s|
  {
    if !(p <= s) {
      ContainsHead(s[1..], p);
    }
  }

  /** `s.replace(p, '')`: scans left to right and deletes every
      non-overlapping occurrence of p; text that forms p only after a
      deletion is not scanned again. */
  function RemoveAll(s: string, p: string): (r: string)
    requires |p| > 0
    ensures |r| <= |s|
    ensures !Contains(s, p) ==> r == s
    decreases |s|
  {
    if |s| == 0 then s
    else if p <= s then RemoveAll(s[|p|..], p)
    else [s[0]] + RemoveAll(s[1..], p)
  }

  /** `s.replace(p, '')` deletes the leftmost occurrence of p and carries on
      after it: when p starts nowhere in a + p + b before the copy that
      follows a, that copy goes and the scan resumes on b. With the clause
      for a p-free s, this determines the result for every s. */
  lemma {:induction false} RemoveFirst(a: string, p: string, b: string)
    requires |p| > 0
    requires forall j: nat :: j < |a| ==> !MatchAt(a + p + b, p, j)
    ensures RemoveAll(a + p + b, p) == a + RemoveAll(b, p)
    decreases |a|
  {
    var s := a + p + b;
    if |a| == 0 {
      assert s == p + b && s[..|p|] == p && s[|p|..] == b;
    } else {
      assert !MatchAt(s, p, 0);
      NoMatchTail(s, p, |a|);
      assert s[1..] == a[1..] + p + b;
      RemoveFirst(a[1..], p, b);
      RemoveHead(s, p);
      assert a == [a[0]] + a[1..];
    }
  }

  /** No occurrence before i in s means none before i - 1 in s[1..]. */
  lemma NoMatchTail(s: string, p: string, i: nat)
    requires 0 < i && 0 < |s|
    requires forall j: nat :: j < i ==> !MatchAt(s, p, j)
    ensures forall j: nat :: j < i - 1 ==> !MatchAt(s[1..], p, j)
  {
    forall j: nat | j < i - 1 ensures !MatchAt(s[1..], p, j) {
      assert !MatchAt(s, p, j + 1);
      if j + |p| <= |s[1..]| {
        assert s[1..][j..j + |p|] == s[j + 1..j + 1 + |p|];
      }
    }
  }

  /** A head that does not start an occurrence is kept. */
  lemma RemoveHead(s: string, p: string)
    requires |p| > 0 && |s| > 0 && !MatchAt(s, p, 0)
    ensures RemoveAll(s, p) == [s[0]] + RemoveAll(s[1..], p)
  {
    assert !(p <= s);
  }

  /** A single trailing p is deleted when its first character does not
      occur before it. */
  lemma {:induction false} RemoveTrailing(base: string, p: string)
    requires |p| > 0 && p[0] !in base
    ensures RemoveAll(base + p, p) == base
    decreases |base|
  {
    var s := base + p;
    if |base| == 0 {
      assert s == p && s[|p|..] == [];
    } else {
      assert s[0] == base[0] != p[0];
      assert s[1..] == base[1..] + p;
      RemoveTrailing(base[1..], p);
      assert base == [base[0]] + base[1..];
    }
  }

  /** `s.split(c, 1)[1]`: everything after the first occurrence of c. */
  function AfterFirst(s: string, c: char): (r: string)
    requires c in s
    ensures |r| < |s|
    ensures s == s[..|s| - |r| - 1] + [c] + r
    ensures c !in s[..|s| - |r| - 1]
  {
    if s[0] == c then s[1..]
    else
      var r := AfterFirst(s[1..], c);
      assert s == [s[0]] + s[1..];
      r
  }

  /** Python's `str.isspace` for one character: ASCII controls 9..13 and
      28..31, the space, NEL, NBSP and the Unicode space separators
      (including the ideographic space U+3000). */
  predicate IsSpace(c: char)
  {
    var n := c as int;
    || n == 0x20
    || 0x09 <= n <= 0x0D
    || 0x1C <= n <= 0x1F
    || n == 0x85 || n == 0xA0 || n == 0x1680
    || 0x2000 <= n <= 0x200A
    || n == 0x2028 || n == 0x2029 || n == 0x202F || n == 0x205F
    || n == 0x3000
  }

  predicate AllSpace(s: string)
  {
    forall i :: 0 <= i < |s| ==> IsSpace(s[i])
  }

  /** Index of the first non-whitespace character at or after i (|s| if none). */
  function SkipSpaces(s: string, i: nat): (k: nat)
    requires i <= |s|
    ensures i <= k <= |s|
    ensures forall j :: i <= j < k ==> IsSpace(s[j])
    ensures k < |s| ==> !IsSpace(s[k])
    decreases |s| - i
  {
    if i == |s| || !IsSpace(s[i]) then i else SkipSpaces(s, i + 1)
  }

  /** Going back from j, but not below lo: the end of the last
      non-whitespace character (lo if none). */
  function SkipSpacesBack(s: string, lo: nat, j: nat): (k: nat)
    requires lo <= j <= |s|
    ensures lo <= k <= j
    ensures forall m :: k <= m < j ==> IsSpace(s[m])
    ensures k > lo ==> !IsSpace(s[k - 1])
  {
    if j == lo || !IsSpace(s[j - 1]) then j else SkipSpacesBack(s, lo, j - 1)
  }

  /** `s.strip()`: removes leading and trailing whitespace. The result is
      the piece of s between an all-whitespace prefix and an all-whitespace
      suffix, it neither starts nor ends with whitespace, and it is empty
      exactly when s is all whitespace. */
  function Strip(s: string): (r: string)
    ensures var i := SkipSpaces(s, 0);
      && i + |r| <= |s| && r == s[i..i + |r|]
      && (forall j :: 0 <= j < i ==> IsSpace(s[j]))
      && (forall j :: i + |r| <= j < |s| ==> IsSpace(s[j]))
    ensures |r| > 0 ==> !IsSpace(r[0]) && !IsSpace(r[|r| - 1])
    ensures r == [] <==> AllSpace(s)
  {
    var i := SkipSpaces(s, 0);
    var k := SkipSpacesBack(s, i, |s|);
    assert k > i ==> !IsSpace(s[i]);
    s[i..k]
  }

  /** `c.lower()` on ASCII letters; every other character is left alone. */
  function LowerChar(c: char): char
  {
    if 'A' <= c <= 'Z' then (c as int + 32) as char else c
  }

  function Lower(s: string): (r: string)
    ensures |r| == |s|
    ensures forall i :: 0 <= i < |s| ==> r[i] == LowerChar(s[i])
  {
    if |s| == 0 then [] else [LowerChar(s[0])] + Lower(s[1..])
  }

  lemma LowerAppend(a: string, b: string)
    ensures Lower(a + b) == Lower(a) + Lower(b)
  {
  }

  lemma {:induction false} ContainsAppendRight(a: string, b: string, p: string)
    requires Contains(a, p)
    ensures Contains(a + b, p)
    decreases |a|
  {
    if !(p <= a) {
      ContainsAppendRight(a[1..], b, p);
      assert (a + b)[1..] == a[1..] + b;
    }
  }

  lemma {:induction false} ContainsAppendLeft(b: string, a: string, p: string)
    requires Contains(a, p)
    ensures Contains(b + a, p)
    decreases |b|
  {
    if |b| == 0 {
      assert b + a == a;
    } else {
      ContainsAppendLeft(b[1..], a, p);
      assert (b + a)[1..] == b[1..] + a;
    }
  }
}

=== FILE: volumes.dfy ===
/** The volume splitter: cuts the converted commentary into one file per
    volume, each running from its volume heading to the next heading, the
    last one to the end of the text (split_lengyan.py:10-59). The heading
    matches are given; finding them with the regular expression is not
    modelled. */
module Volumes {
  import opened Seqs

  /** One match of the volume heading pattern: the captured volume number
      and where the match starts and stops in the content. */
  datatype Heading = Heading(number: string, start: nat, stop: nat)

  /** One output file: its name and its text. */
  datatype Volume = Volume(file: string, text: string)

  function Min(a: nat, b: nat): nat
  {
    if a <= b then a else b
  }

  /** Python's `s[lo:hi]` for non-negative bounds: both are clamped to the
      string, and the slice is empty when lo is not below hi. */
  function Slice(s: string, lo: nat, hi: nat): (r: string)
    ensures |r| == if lo < hi && lo < |s| then Min(hi, |s|) - lo else 0
    ensures lo <= hi <= |s| ==> r == s[lo..hi]
  {
    if lo >= |s| || lo >= hi then "" else s[lo..Min(hi, |s|)]
  }

  const FilePrefix: string := "楞严经义贯_第"
  const FileSuffix: string := "卷.md"

  /** The output file of a volume, named after its captured number. */
  function FileName(number: string): string
  {
    FilePrefix + number + FileSuffix
  }

  /** Distinct volume numbers give distinct files. */
  lemma FileNameInjective(a: string, b: string)
    requires FileName(a) == FileName(b)
    ensures a == b
  {
    var n := |FilePrefix|;
    assert a == FileName(a)[n..|FileName(a)| - |FileSuffix|];
    assert b == FileName(b)[n..|FileName(b)| - |FileSuffix|];
  }

  /** Where volume i ends: at the start of the next heading, or at the end
      of the content for the last one. */
  function EndOf(content: string, hs: seq<Heading>, i: nat): nat
    requires i < |hs|
  {
    if i < |hs| - 1 then hs[i + 1].start else |content|
  }

  /** One volume per heading, named after its number, holding the content
      from its heading up to where it ends. */
  function SplitByVolume(content: string, hs: seq<Heading>): (vs: seq<Volume>)
    ensures |vs| == |hs|
    ensures forall i :: 0 <= i < |hs| ==> vs[i].file == FileName(hs[i].number)
  {
    seq(|hs|, i requires 0 <= i < |hs| => Volume(FileName(hs[i].number), Slice(content, hs[i].start, EndOf(content, hs, i))))
  }

  /** What `re.finditer` yields for a pattern that cannot match the empty
      string: non-empty matches inside the content, in order, none
      overlapping a later one. */
  predicate ValidHeadings(content: string, hs: seq<Heading>)
  {
    && (forall i :: 0 <= i < |hs| ==> hs[i].start < hs[i].stop <= |content|)
    && (forall i, j :: 0 <= i < j < |hs| ==> hs[i].stop <= hs[j].start)
  }

  /** The texts of the volumes, in order. */
  function Bodies(vs: seq<Volume>): seq<string>
  {
    seq(|vs|, i requires 0 <= i < |vs| => vs[i].text)
  }

  /** Volume i is exactly the content from its heading's start to where it
      ends, and it begins with the heading's own text. */
  lemma VolumeText(content: string, hs: seq<Heading>, i: nat)
    requires ValidHeadings(content, hs) && i < |hs|
    ensures var vs, e := SplitByVolume(content, hs), EndOf(content, hs, i);
      && hs[i].stop <= e <= |content|
      && vs[i].text == content[hs[i].start..e]
      && vs[i].text[..hs[i].stop - hs[i].start] == content[hs[i].start..hs[i].stop]
  {
    var vs, s0, s1, e := SplitByVolume(content, hs), hs[i].start, hs[i].stop, EndOf(content, hs, i);
    if i < |hs| - 1 {
      assert s1 <= hs[i + 1].start;
    }
    assert vs[i].text == Slice(content, s0, e) == content[s0..e];
    assert content[s0..e][..s1 - s0] == content[s0..s1];
  }

  /** Every volume holds the start of its own heading and of no other one. */
  lemma OneHeadingPerVolume(content: string, hs: seq<Heading>, i: nat, j: nat)
    requires ValidHeadings(content, hs) && i < |hs| && j < |hs|
    ensures hs[i].start <= hs[j].start < EndOf(content, hs, i) <==> i == j
  {
    if i + 1 < j {
      assert hs[i + 1].stop <= hs[j].start;
    }
  }

  /** Appending the slice that follows a joined prefix extends it. */
  lemma JoinStep(p: seq<string>, x: string, content: string, s0: nat, m: nat, e: nat)
    requires s0 <= m <= e <= |content|
    requires Concat(p) == content[s0..m] && x == content[m..e]
    ensures Concat(p + [x]) == content[s0..e]
  {
    ConcatSnoc(p, x);
    SliceJoin(content, s0, m, e);
  }

  lemma JoinNext(b: seq<string>, k: nat, content: string, s0: nat, m: nat, e: nat)
    requires k < |b| && s0 <= m <= e <= |content|
    requires Concat(b[..k]) == content[s0..m] && b[k] == content[m..e]
    ensures Concat(b[..k + 1]) == content[s0..e]
  {
    JoinStep(b[..k], b[k], content, s0, m, e);
    assert b[..k] + [b[k]] == b[..k + 1];
  }

  /** Texts that are the consecutive volume slices of the content, joined
      up to the k-th, run from the first heading to where volume k ends. */
  lemma {:induction false} PrefixJoin(content: string, hs: seq<Heading>, b: seq<string>, k: nat)
    requires |b| == |hs| && k < |hs|
    requires forall i :: 0 <= i < |b| ==> hs[i].start <= EndOf(content, hs, i) <= |content|
    requires forall i :: 0 <= i < |b| ==> b[i] == content[hs[i].start..EndOf(content, hs, i)]
    ensures hs[0].start <= EndOf(content, hs, k)
    ensures Concat(b[..k + 1]) == content[hs[0].start..EndOf(content, hs, k)]
  {
    var s0, m, e := hs[0].start, hs[k].start, EndOf(content, hs, k);
    if k == 0 {
      JoinStep([], b[0], content, s0, s0, e);
      assert [] + [b[0]] == b[..1];
    } else {
      PrefixJoin(content, hs, b, k - 1);
      assert EndOf(content, hs, k - 1) == m;
      JoinNext(b, k, content, s0, m, e);
    }
  }

  /** Each volume text is its slice of the content. */
  lemma BodiesAreSlices(content: string, hs: seq<Heading>)
    requires ValidHeadings(content, hs)
    ensures var b := Bodies(SplitByVolume(content, hs));
      && |b| == |hs|
      && (forall i :: 0 <= i < |b| ==> hs[i].start <= EndOf(content, hs, i) <= |content|)
      && (forall i :: 0 <= i < |b| ==> b[i] == content[hs[i].start..EndOf(content, hs, i)])
  {
    var b := Bodies(SplitByVolume(content, hs));
    forall i | 0 <= i < |b|
      ensures hs[i].start <= EndOf(content, hs, i) <= |content|
      ensures b[i] == content[hs[i].start..EndOf(content, hs, i)]
    {
      VolumeText(content, hs, i);
    }
  }

  /** The volumes joined in order give back the content from the first
      heading on: nothing is lost or repeated, only the text before the
      first heading is dropped. */
  lemma SplitReassembles(content: string, hs: seq<Heading>)
    requires ValidHeadings(content, hs) && |hs| > 0
    ensures Concat(Bodies(SplitByVolume(content, hs))) == content[hs[0].start..]
  {
    var b := Bodies(SplitByVolume(content, hs));
    BodiesAreSlices(content, hs);
    PrefixJoin(content, hs, b, |hs| - 1);
    assert b[..|hs|] == b;
    assert EndOf(content, hs, |hs| - 1) == |content|;
  }

  /** Content without a heading gives no volume at all. */
  lemma NoHeadingNoVolume(content: string)
    ensures SplitByVolume(content, []) == []
  {
  }
}
